=== FILE: README.md ===
# CrossWindow, modelled in Dafny

CrossWindow is a C++ library that gives one window-management API for
several desktops. It lists top-level windows, searches them by title or by
owning process, and queries each window's title, rectangle, state bits and
process id. It can also close, minimize, maximize, restore, show, hide,
focus, move, resize, retitle windows, make them topmost and change their
opacity.

A public `WindowManager` owns exactly one backend, chosen when the library
is built:
- X11 on Linux;
- Win32 on Windows;
- a stub that supports nothing.

It forwards every call to that backend unchanged.

This project models the platform-independent decision logic of the library:
- the shared data model: the `WindowState` bit set, `Result<T>`,
  `ErrorCode`, and the defaults of `Rect` and `WindowInfo`;
- each backend's lifecycle (`m_initialized`, `m_lastError`);
- the guard order of every handle operation: `NotInitialized` first, then
  `InvalidHandle`, and only then the effect;
- enumeration, which walks an ordered candidate list, skips windows whose
  info lookup fails and stops at the visitor's first `false`;
- title search and process search, as order-preserving substring filters;
- the derivation of the state bits from EWMH atoms and from Win32 window
  flags;
- the facade;
- the two display helpers of the window-list example.

The operating system is a value: an X11 `Server` or a Win32 `Desktop`.
Every native query becomes a lookup in it. Each mutation is described by
the error code it returns together with the native requests it issues.
Those requests are recorded, not applied.

Files and modules:
- `cross_window.dfy` (`CrossWindow`): the public header's data model.
- `text.dfy` (`Text`): ASCII lowercasing, substring search and
  `ToLowerCompare`.
- `backend.dfy` (`Backend`): the backend contract. It holds:
  - the guard discipline;
  - the `Mutation` datatype;
  - the enumeration and filter specifications, with their lemmas;
  - opacity clamping.
- `x11.dfy` (`X11`): the X11 backend `WindowManagerLinux`.
- `win32.dfy` (`Win32`): the Win32 backend `WindowManagerWindows`, with
  `EnumWindowsProc` and its data block.
- `stub.dfy` (`Stub`): `WindowManagerStub`.
- `facade.dfy` (`Facade`): `WindowManager`.
- `window_list.dfy` (`WindowList`): `StateToString` and title truncation.

## Model

| member | source | states |
|---|---|---|
| CrossWindow.DefaultRect | include/CrossWindow.h:58-64 | a default `Rect` is all zero |
| CrossWindow.Or | include/CrossWindow.h:81-84 | for each of the six flags, the union has the flag iff either operand has it |
| CrossWindow.And | include/CrossWindow.h:86-89 | for each of the six flags, the intersection has the flag iff both operands have it |
| CrossWindow.FlagsAreDistinctSingleBits | include/CrossWindow.h:69-78 | `Normal` is 0; the six flags are the bits 1, 2, 4, 8, 16, 32 in declaration order, pairwise disjoint, and all inside the flag mask |
| CrossWindow.OrAndLaws | include/CrossWindow.h:81-89 | `\|` is commutative, associative and idempotent with `Normal` as identity; `&` with `Normal` yields `Normal` |
| CrossWindow.HasFlagNormal | include/CrossWindow.h:91-94 | `HasFlag(Normal, f)` and `HasFlag(s, Normal)` are both false |
| CrossWindow.StateOf | include/CrossWindow.h:69-94 | a state built by OR-ing flags has each flag exactly when its condition holds, and no bit outside the six flags |
| CrossWindow.DefaultWindowInfo | include/CrossWindow.h:99-109 | a default `WindowInfo` is `Normal`, process 0, invisible, with a zero rect, a null handle and empty strings |
| CrossWindow.DefaultResultIsOk | include/CrossWindow.h:128-137 | `ok()` holds iff the error is `Success`; a default-constructed result is ok, with an empty message |
| Text.Lower | src/platform/linux/WindowManagerLinux.cpp:273-280 | lowercasing keeps the length |
| Text.OccursStep | src/platform/linux/WindowManagerLinux.cpp:273-280 | a pattern occurs in a non-empty string iff it is a prefix or occurs in the tail |
| Text.Contains | src/platform/windows/WindowManagerWindows.cpp:205-235 | `find(p) != npos` holds iff the pattern occurs somewhere in the string |
| Text.ToLowerCompare | src/platform/linux/WindowManagerLinux.cpp:273-280 | holds iff the lowercased pattern occurs in the lowercased string |
| Text.LowerSlice | src/platform/windows/WindowManagerWindows.cpp:116-123 | lowercasing commutes with taking a slice |
| Text.EmptyPatternMatchesAll | src/platform/linux/WindowManagerLinux.cpp:273-280 | the empty pattern matches every string, both case-sensitively and case-insensitively |
| Text.CaseSensitiveMatchIsInsensitiveMatch | src/platform/linux/WindowManagerLinux.cpp:326-362 | an exact-case match is also a case-insensitive match |
| Text.LowerIdempotent | src/platform/linux/WindowManagerLinux.cpp:273-280 | lowercasing twice equals lowercasing once |
| Text.ToLowerCompareIgnoresCase | src/platform/windows/WindowManagerWindows.cpp:116-123 | lowercasing either argument beforehand does not change the answer |
| Backend.GuardedPrecedence | src/WindowManagerImpl.h:33-39 | a guarded query reports `NotInitialized` before `InvalidHandle` before the effect, with the default value and the fixed messages on both error paths, and otherwise is the effect itself |
| Backend.GuardedOutcomePrecedence | src/WindowManagerImpl.h:46-59 | a guarded mutation follows the same order and issues no request on either error path |
| Backend.CollectAppend | src/platform/linux/WindowManagerLinux.cpp:282-303 | collecting a concatenation is the concatenation of the collections |
| Backend.CollectMembers | src/platform/linux/WindowManagerLinux.cpp:282-303 | a window is collected iff some candidate's info lookup succeeds with it |
| Backend.CollectLength | src/platform/linux/WindowManagerLinux.cpp:282-303 | enumeration never reports more windows than there are candidates |
| Backend.FilterMembers | src/platform/linux/WindowManagerLinux.cpp:326-390 | a window is in the search result iff it is enumerated and matches |
| Backend.FilterAppend | src/platform/windows/WindowManagerWindows.cpp:205-256 | filtering distributes over concatenation, so the order of the list is kept |
| Backend.FilterReported | src/platform/linux/WindowManagerLinux.cpp:326-362 | filtering one candidate keeps it exactly when it was found and matches |
| Backend.FilterIdempotent | src/platform/windows/WindowManagerWindows.cpp:205-235 | searching the result of a search again changes nothing |
| Backend.EmptyTitlePatternKeepsAll | src/platform/linux/WindowManagerLinux.cpp:326-362 | searching for the empty title returns every enumerated window, in order |
| Backend.CaseSensitiveSearchIsNarrower | src/platform/windows/WindowManagerWindows.cpp:205-235 | every case-sensitive title hit is also a case-insensitive hit |
| Backend.VisitAcceptedPrefix | src/platform/linux/WindowManagerLinux.cpp:305-324 | a prefix the visitor accepts entirely is visited whole, and the walk continues after it |
| Backend.AcceptsStep | src/platform/linux/WindowManagerLinux.cpp:305-324 | two accepted runs of windows form an accepted run |
| Backend.VisitStopsAt | src/platform/linux/WindowManagerLinux.cpp:316-320 | the walk stops right after the first window the visitor refuses |
| Backend.CollectStopsAt | src/platform/windows/WindowManagerWindows.cpp:155-163 | when the visitor refuses the i-th candidate, the windows visited are exactly those collected up to and including it |
| Backend.EnumerationRunsThrough | src/platform/linux/WindowManagerLinux.cpp:305-324 | a visitor that accepts every window sees them all |
| Backend.VisitUntilStopSpec | src/platform/linux/WindowManagerLinux.cpp:305-324 | the visited windows are a prefix of the list; either all of them were accepted, or the last one is the only one refused |
| Backend.ClampOpacity | src/platform/linux/WindowManagerLinux.cpp:945-946 | the clamped opacity lies in [0, 1]: below 0 gives 0, above 1 gives 1, and a value in range is unchanged |
| X11.OpacityValueAsWritten | src/platform/linux/WindowManagerLinux.cpp:945-953 | the property value as the code computes it is some 32-bit word |
| X11.OpaqueSentAsTransparent | src/platform/linux/WindowManagerLinux.cpp:945-953 | as written, opacity 1.0 and opacity 0.0 both send 0, and 0.5 sends more than 1.0 |
| X11.OpacityValue | src/platform/linux/WindowManagerLinux.cpp:945-953 | corrected scaling: the value is within 0 .. 0xFFFFFFFF, 0 at opacity 0 and 0xFFFFFFFF at opacity 1 |
| X11.OpacityValueMonotone | src/platform/linux/WindowManagerLinux.cpp:945-953 | corrected scaling: more opacity never sends a smaller value |
| X11.SetOpacitySendsCorrectedValue | src/platform/linux/WindowManagerLinux.cpp:945-953 | on a live window, the modelled SetWindowOpacity sends 0xFFFFFFFF for full opacity, which the code as written does not send |
| X11.WindowManagerLinux.constructor | src/WindowManagerImpl.h:66-67 | a new X11 backend is uninitialized, with no display and an empty last error |
| X11.WindowManagerLinux.Initialize | src/platform/linux/WindowManagerLinux.cpp:33-51 | when already initialized it succeeds without touching anything; otherwise it succeeds iff the display opens, and on failure it records "Failed to open X11 display" and stays uninitialized |
| X11.WindowManagerLinux.Shutdown | src/platform/linux/WindowManagerLinux.cpp:58-66 | afterwards the backend is uninitialized with the display released, whatever the state before, so a second call changes nothing |
| X11.WindowManagerLinux.SetLastError | src/platform/linux/WindowManagerLinux.cpp:959-967 | the slot then holds exactly the given message |
| X11.WindowManagerLinux.HasWmState | src/platform/linux/WindowManagerLinux.cpp:211-239 | the loop answers true iff the atom occurs in the window's `_NET_WM_STATE` list |
| X11.WindowManagerLinux.IsValidWindow | src/platform/linux/WindowManagerLinux.cpp:615-633 | valid iff initialized and the window is alive |
| X11.WindowManagerLinux.GetFocusedWindow | src/platform/linux/WindowManagerLinux.cpp:635-662 | the active window when initialized, and the null handle otherwise |
| X11.WindowManagerLinux.DeriveState | src/platform/linux/WindowManagerLinux.cpp:433-458 | the state bits accumulated by the `\|=` steps are the derivation that StateDerivation characterizes |
| X11.StateDerivation | src/platform/linux/WindowManagerLinux.cpp:433-458 | Minimized iff HIDDEN; Maximized iff both MAXIMIZED_VERT and MAXIMIZED_HORZ; Fullscreen iff FULLSCREEN; AlwaysOnTop iff ABOVE; Focused iff the window is active; Hidden never; no other bit |
| X11.WindowManagerLinux.GetWindowInfo | src/platform/linux/WindowManagerLinux.cpp:392-462 | the query answer characterized by QueriesFollowGuard |
| X11.WindowManagerLinux.GetWindowTitle | src/platform/linux/WindowManagerLinux.cpp:464-485 | the guarded title query characterized by QueriesFollowGuard |
| X11.WindowManagerLinux.GetWindowRect | src/platform/linux/WindowManagerLinux.cpp:487-526 | the guarded rect query characterized by QueriesFollowGuard |
| X11.WindowManagerLinux.GetWindowState | src/platform/linux/WindowManagerLinux.cpp:528-575 | the guarded state query, whose bits StateDerivation characterizes |
| X11.WindowManagerLinux.GetWindowProcessId | src/platform/linux/WindowManagerLinux.cpp:577-598 | the guarded process-id query characterized by QueriesFollowGuard |
| X11.QueriesFollowGuard | src/platform/linux/WindowManagerLinux.cpp:397-409 | every query obeys the guard order; GetWindowInfo is ok iff initialized and the handle is alive, and then carries that handle, its derived state and its title; GetWindowRect fails with `OperationFailed` iff the window is alive but its attributes cannot be read |
| X11.WindowManagerLinux.IsWindowVisible | src/platform/linux/WindowManagerLinux.cpp:600-613 | visible iff initialized, the window is alive and its map state is viewable |
| X11.WindowManagerLinux.GetFocusedWindowInfo | src/platform/linux/WindowManagerLinux.cpp:664-675 | the focused-window query characterized by FocusedInfoWithoutFocus |
| X11.FocusedInfoWithoutFocus | src/platform/linux/WindowManagerLinux.cpp:664-675 | `WindowNotFound` when uninitialized or when there is no active window; otherwise the info of the active window |
| X11.WindowManagerLinux.GetAllWindows | src/platform/linux/WindowManagerLinux.cpp:282-303 | the push_back loop returns the client list's windows in order, skipping failed lookups; when uninitialized it returns nothing and records the not-initialized message |
| X11.AllWindowsMembers | src/platform/linux/WindowManagerLinux.cpp:282-303 | a window is listed iff it is in the client list and alive, with its info as GetWindowInfo reports it |
| X11.WindowManagerLinux.EnumerateWindows | src/platform/linux/WindowManagerLinux.cpp:305-324 | the callback is invoked on the listed windows in order, up to and including the first that answers false, and never when uninitialized |
| X11.WindowManagerLinux.FindWindowsByTitle | src/platform/linux/WindowManagerLinux.cpp:326-362 | the loop returns, in order, the listed windows whose title contains the pattern, exactly or case-insensitively |
| X11.WindowManagerLinux.FindWindowsByProcess | src/platform/linux/WindowManagerLinux.cpp:364-390 | the loop returns, in order, the listed windows whose process name contains the name case-insensitively |
| X11.WindowManagerLinux.Mutate | src/platform/linux/WindowManagerLinux.cpp:677-957 | each of the fourteen manipulation methods answers the guarded outcome that MutationsFollowGuard characterizes |
| X11.MutationsFollowGuard | src/platform/linux/WindowManagerLinux.cpp:677-957 | every mutation obeys the guard order, succeeds iff initialized and the handle is alive, issues requests iff it succeeds, and addresses only that window |
| Win32.Alpha | src/platform/windows/WindowManagerWindows.cpp:770-777 | the alpha byte lies in 0 .. 255: 0 at opacity 0 and 255 at opacity 1 |
| Win32.EnumWindowsData.constructor | src/platform/windows/WindowManagerWindows.cpp:168-203 | a new data block holds no windows, has invoked nothing, and asks to continue |
| Win32.WindowManagerWindows.constructor | src/WindowManagerImpl.h:66-67 | a new Win32 backend is uninitialized with an empty last error |
| Win32.WindowManagerWindows.Initialize | src/platform/windows/WindowManagerWindows.cpp:31-35 | always succeeds and leaves the backend initialized |
| Win32.WindowManagerWindows.Shutdown | src/platform/windows/WindowManagerWindows.cpp:42-45 | always leaves the backend uninitialized |
| Win32.WindowManagerWindows.SetLastError | src/platform/windows/WindowManagerWindows.cpp:783-791 | the slot then holds exactly the given message |
| Win32.WindowManagerWindows.GetWindowInfo | src/platform/windows/WindowManagerWindows.cpp:258-329 | the query answer characterized by QueriesFollowGuard and StateDerivation, with the rect read by the native rectangle query (see Left out) |
| Win32.WindowManagerWindows.GetWindowTitle | src/platform/windows/WindowManagerWindows.cpp:331-353 | the guarded title query characterized by QueriesFollowGuard |
| Win32.WindowManagerWindows.GetWindowRect | src/platform/windows/WindowManagerWindows.cpp:355-390 | the guarded rect query: left and top, with the width and height taken as differences, or `OperationFailed` |
| Win32.WindowManagerWindows.GetWindowState | src/platform/windows/WindowManagerWindows.cpp:392-439 | the guarded state query, whose bits StateDerivation characterizes |
| Win32.WindowManagerWindows.GetWindowProcessId | src/platform/windows/WindowManagerWindows.cpp:441-465 | the guarded process-id query characterized by QueriesFollowGuard |
| Win32.StateDerivation | src/platform/windows/WindowManagerWindows.cpp:298-325 | Minimized iff iconic; Maximized iff zoomed; Hidden iff the snapshot is not visible; AlwaysOnTop iff topmost; Focused iff foreground; Fullscreen never; no other bit |
| Win32.QueriesFollowGuard | src/platform/windows/WindowManagerWindows.cpp:258-441 | every query obeys the guard order; GetWindowInfo is ok iff initialized and the handle is a window, and then carries that handle, state and title; GetWindowRect fails with `OperationFailed` iff the native rect query fails, and otherwise agrees with GetWindowInfo's rect |
| Win32.WindowManagerWindows.IsWindowVisible | src/platform/windows/WindowManagerWindows.cpp:467-474 | visible iff initialized and the native visibility test holds |
| Win32.VisibleNeedsNoValidity | src/platform/windows/WindowManagerWindows.cpp:467-474 | IsWindowVisible checks no validity of its own: a visible window is a valid one whose info reports it visible |
| Win32.WindowManagerWindows.IsValidWindow | src/platform/windows/WindowManagerWindows.cpp:476-483 | valid iff initialized and the handle is a window |
| Win32.WindowManagerWindows.GetFocusedWindow | src/platform/windows/WindowManagerWindows.cpp:485-492 | the foreground window when initialized, and the null handle otherwise |
| Win32.WindowManagerWindows.GetFocusedWindowInfo | src/platform/windows/WindowManagerWindows.cpp:494-505 | the info of the foreground window, or `WindowNotFound` when there is none or the backend is uninitialized |
| Win32.WindowManagerWindows.EnumWindowsProc | src/platform/windows/WindowManagerWindows.cpp:125-166 | a visible, unowned, titled window whose lookup succeeds is appended to the vector and passed to the callback; the walk continues unless the callback refused it |
| Win32.WindowManagerWindows.EnumWindows | src/platform/windows/WindowManagerWindows.cpp:168-203 | the z-order walk appends the listed windows, and hands the callback the listed windows up to its first refusal |
| Win32.WindowManagerWindows.GetAllWindows | src/platform/windows/WindowManagerWindows.cpp:168-187 | the listed windows in z-order; when uninitialized, nothing, with the not-initialized message recorded |
| Win32.AllWindowsMembers | src/platform/windows/WindowManagerWindows.cpp:125-187 | a window is listed iff it is in the z-order and passes the visible, unowned, non-empty-title filter, with its info |
| Win32.AllWindowsAreVisible | src/platform/windows/WindowManagerWindows.cpp:125-166 | every listed window is visible, titled and not Hidden |
| Win32.WindowManagerWindows.EnumerateWindows | src/platform/windows/WindowManagerWindows.cpp:189-203 | the callback is invoked on the listed windows in order, up to and including the first that answers false |
| Win32.WindowManagerWindows.FindWindowsByTitle | src/platform/windows/WindowManagerWindows.cpp:205-235 | the loop returns, in order, the listed windows whose title contains the pattern (`find`, or lowercased comparison); the last error is untouched |
| Win32.WindowManagerWindows.FindWindowsByProcess | src/platform/windows/WindowManagerWindows.cpp:237-256 | the loop returns, in order, the listed windows whose process name contains the name case-insensitively |
| Win32.WindowManagerWindows.Mutate | src/platform/windows/WindowManagerWindows.cpp:507-781 | each of the fourteen manipulation methods answers the guarded outcome that MutationsFollowGuard characterizes |
| Win32.MutationsFollowGuard | src/platform/windows/WindowManagerWindows.cpp:507-781 | every mutation obeys the guard order; it succeeds iff both guards pass, the owner can be opened for ForceClose, and the title converts for SetTitle; it issues requests iff it succeeds, all addressed to that window |
| Win32.ForceCloseAccess | src/platform/windows/WindowManagerWindows.cpp:525-550 | past the guards, ForceClose is `AccessDenied` iff the owner process cannot be opened, and otherwise terminates exactly that process |
| Win32.FocusRestoresIconic | src/platform/windows/WindowManagerWindows.cpp:637-659 | focusing restores a minimized window first, then brings it to the foreground and gives it focus |
| Stub.WindowManagerStub.constructor | src/WindowManagerImpl.h:66-67 | a new stub has an empty last error |
| Stub.WindowManagerStub.Initialize | src/platform/stub/WindowManagerStub.h:19-23 | always fails, leaves the stub uninitialized and records "Platform not supported" |
| Stub.WindowManagerStub.IsInitialized | src/platform/stub/WindowManagerStub.h:25 | never initialized |
| Stub.WindowManagerStub.Shutdown | src/platform/stub/WindowManagerStub.h:26 | changes nothing |
| Stub.WindowManagerStub.GetAllWindows | src/platform/stub/WindowManagerStub.h:28 | no windows |
| Stub.WindowManagerStub.EnumerateWindows | src/platform/stub/WindowManagerStub.h:29 | the callback is never invoked |
| Stub.WindowManagerStub.FindWindowsByTitle | src/platform/stub/WindowManagerStub.h:30 | no windows |
| Stub.WindowManagerStub.FindWindowsByProcess | src/platform/stub/WindowManagerStub.h:31 | no windows |
| Stub.WindowManagerStub.GetWindowInfo | src/platform/stub/WindowManagerStub.h:33-36 | `NotSupported` with "Platform not supported" and a default `WindowInfo` |
| Stub.WindowManagerStub.GetWindowTitle | src/platform/stub/WindowManagerStub.h:38-41 | `NotSupported` with the platform message and an empty title |
| Stub.WindowManagerStub.GetWindowRect | src/platform/stub/WindowManagerStub.h:43-46 | `NotSupported` with the platform message and a default rect |
| Stub.WindowManagerStub.GetWindowState | src/platform/stub/WindowManagerStub.h:48-51 | `NotSupported` with the platform message and `Normal` |
| Stub.WindowManagerStub.GetWindowProcessId | src/platform/stub/WindowManagerStub.h:53-56 | `NotSupported` with the platform message and process id 0 |
| Stub.WindowManagerStub.IsWindowVisible | src/platform/stub/WindowManagerStub.h:58 | never visible |
| Stub.WindowManagerStub.IsValidWindow | src/platform/stub/WindowManagerStub.h:59 | never valid |
| Stub.WindowManagerStub.GetFocusedWindow | src/platform/stub/WindowManagerStub.h:61 | the null handle |
| Stub.WindowManagerStub.GetFocusedWindowInfo | src/platform/stub/WindowManagerStub.h:62-65 | `NotSupported` with the platform message and a default `WindowInfo` |
| Stub.WindowManagerStub.Mutate | src/platform/stub/WindowManagerStub.h:67-80 | each manipulation answers `NotSupported` whatever the handle and arguments, and issues nothing |
| Stub.WindowManagerStub.SetLastError | src/platform/stub/WindowManagerStub.h:82-83 | GetLastError then returns exactly the given message |
| Stub.StubIsNotGuarded | src/platform/stub/WindowManagerStub.h:33-65 | although never initialized, the stub answers neither `NotInitialized` nor `InvalidHandle`, and no answer is ok |
| Facade.GetPlatformName | src/WindowManager.cpp:212-223 | one of "Windows", "Linux", "macOS" or "Stub" |
| Facade.PlatformNamesIdentifyPlatform | src/WindowManager.cpp:212-223 | two platforms have the same name iff they are the same platform |
| Facade.WindowManager.constructor | src/WindowManager.cpp:32-43 | installs exactly one fresh, uninitialized backend, the one of the build platform |
| Facade.WindowManager.MoveFrom | src/WindowManager.cpp:53 | the new manager takes over the backend and the moved-from one is left without any |
| Facade.WindowManager.Destroy | src/WindowManager.cpp:45-51 | shuts the backend down iff it exists and is initialized, and otherwise touches nothing |
| Facade.WindowManager.Initialize | src/WindowManager.cpp:56-59 | the owned backend's Initialize: X11 succeeds iff it already was initialized or the display opens; Win32 always succeeds; the stub always fails with its message; on success the last error is kept |
| Facade.WindowManager.Shutdown | src/WindowManager.cpp:66-69 | the owned backend ends uninitialized, with its last error kept |
| Facade.WindowManager.GetAllWindows | src/WindowManager.cpp:71-74 | exactly the owned backend's GetAllWindows: its list, the not-initialized message recorded when uninitialized, the last error kept otherwise, and the lifecycle state untouched |
| Facade.WindowManager.EnumerateWindows | src/WindowManager.cpp:76-79 | exactly the owned backend's EnumerateWindows |
| Facade.WindowManager.FindWindowsByTitle | src/WindowManager.cpp:81-85 | exactly the owned backend's FindWindowsByTitle, leaving the backend, its last error included, as it was |
| Facade.WindowManager.FindWindowsByProcess | src/WindowManager.cpp:87-90 | exactly the owned backend's FindWindowsByProcess, leaving the backend, its last error included, as it was |
| Facade.WindowManager.GetWindowInfo | src/WindowManager.cpp:92-95 | exactly the owned backend's GetWindowInfo |
| Facade.WindowManager.GetWindowTitle | src/WindowManager.cpp:97-100 | exactly the owned backend's GetWindowTitle |
| Facade.WindowManager.GetWindowRect | src/WindowManager.cpp:102-105 | exactly the owned backend's GetWindowRect |
| Facade.WindowManager.GetWindowState | src/WindowManager.cpp:107-110 | exactly the owned backend's GetWindowState |
| Facade.WindowManager.GetWindowProcessId | src/WindowManager.cpp:112-115 | exactly the owned backend's GetWindowProcessId |
| Facade.WindowManager.IsWindowVisible | src/WindowManager.cpp:117-120 | exactly the owned backend's IsWindowVisible |
| Facade.WindowManager.IsValidWindow | src/WindowManager.cpp:122-125 | exactly the owned backend's IsValidWindow |
| Facade.WindowManager.GetFocusedWindow | src/WindowManager.cpp:127-130 | exactly the owned backend's GetFocusedWindow |
| Facade.WindowManager.GetFocusedWindowInfo | src/WindowManager.cpp:132-135 | exactly the owned backend's GetFocusedWindowInfo |
| Facade.WindowManager.Mutate | src/WindowManager.cpp:137-205 | each manipulation returns exactly the owned backend's error code |
| WindowList.StateToString | examples/window_list.cpp:12-30 | the text built by the six appends is the words of the set flags in flag order, or "Normal" when none is set |
| WindowList.TextIsConcatOfWords | examples/window_list.cpp:15-26 | the text is the listed flag words joined together |
| WindowList.SetWordsIffFlag | examples/window_list.cpp:15-26 | a flag's word is listed iff the flag is set |
| WindowList.ListedIffSet | examples/window_list.cpp:15-26 | for each of the six flags, its name appears iff `HasFlag(state, flag)` |
| WindowList.TextUpToShape | examples/window_list.cpp:15-29 | the flag text is empty iff no flag is set, and otherwise ends in a space |
| WindowList.NormalIffNoFlag | examples/window_list.cpp:27-29 | the result is "Normal" iff no flag is set |
| WindowList.AllFlagsListed | examples/window_list.cpp:15-26 | the names come in the order Minimized, Maximized, Fullscreen, Hidden, Focused, AlwaysOnTop, each followed by one space |
| WindowList.TruncateTitle | examples/window_list.cpp:56-60 | a title longer than 50 characters becomes its first 47 followed by "...", exactly 50 characters; a shorter one is unchanged |

## Left out

- The native effects of mutations are not modelled. X11 client messages, `XMapWindow`, `XKillClient`, `ShowWindow`, `SetWindowPos`, `TerminateProcess` and the rest are recorded as request values and never applied to the world value. No property relates a mutation to a later query.
- The scoped X11 error-handler swap in `IsValidWindow` (src/platform/linux/WindowManagerLinux.cpp:626-631) installs a process-wide handler. Validity is therefore a lookup in the world's set of live windows.
- X protocol errors outside `IsValidWindow` are not modelled as fatal. The property reads in `FindWindowsByTitle` and `FindWindowsByProcess` (src/platform/linux/WindowManagerLinux.cpp:339, 376-377) and the attribute read in `GetWindowRect` (506) run under Xlib's default error handler. On a window destroyed in the meantime, that handler ends the process. The model lets a client-list window be dead, and a live window have no readable attributes, and treats both as ordinary misses: the window is skipped, or GetWindowRect answers `OperationFailed`. In the code these cases arise only from such a race.
- The world values do not exclude the null handle from the live windows (`X11.Server.alive`, `Win32.Desktop.windows`). On a real display, `XGetWindowAttributes(None)` and `IsWindow(NULL)` fail, so `IsValidWindow(0)` is false on both backends. The model answers for handle 0 whatever the world value says.
- Process names are not modelled. The `/proc/<pid>/comm` read and `QueryFullProcessImageNameW` become a lookup from process id to name.
- UTF-8/UTF-16 conversion is not modelled. Only the branch where Win32 `SetWindowTitle` fails to convert is kept, as a set of titles that do not convert.
- `::tolower` is locale-dependent; it is modelled as ASCII lowercasing.
- X11.WindowManagerLinux.Mutate: for SetWindowOpacity it sends the corrected value `OpacityValue`, not the value the code computes (0 at full opacity, see Findings). X11.SetOpacitySendsCorrectedValue states the difference.
- Opacity is computed on exact reals, not on single-precision floats. The as-written X11 value models the one rounding that matters: the constant 0xFFFFFFFF becomes 2^32.
- Win32.Alpha: the conversion `static_cast<BYTE>` is taken on exact reals, so single-precision rounding just below an integer is not modelled.
- Coordinates are unbounded integers. The 32-bit `int` and `LONG` width of rectangles and of `right - left` is not modelled.
- The macOS backend is not part of this model: only its header exists. So `Facade.WindowManager.constructor` requires a platform other than macOS.
- Facade.WindowManager.MoveFrom: move assignment (src/WindowManager.cpp:54) is not modelled separately from the move constructor. Copy is deleted in C++, so it has no counterpart.
- The forwarding methods of `Facade.WindowManager` require a backend. Calling one on a moved-from manager dereferences a null pointer in C++.
- Facade.WindowManager.Mutate returns only the error code. The backends' `Mutate` also report the native requests.
- The backend destructors' own `Shutdown` calls are not modelled (src/platform/linux/WindowManagerLinux.cpp:28-31, src/platform/windows/WindowManagerWindows.cpp:26-29). Only the facade's conditional shutdown is.
- The fourteen manipulation methods of each backend are modelled as one `Mutate` over a `Mutation` value, one constructor per method.
- Callbacks are pure functions from `WindowInfo` to `bool`. Their side effects are represented by the sequence of windows they are invoked on.
- Win32.WindowManagerWindows.EnumWindowsProc is a static callback in C++ that reaches the manager through the data block. It is modelled as a method of the manager that requires it to be initialized. This is always the case during enumeration, because every caller checks first.
- Win32.WindowManagerWindows.EnumWindowsProc: its visibility test calls `IsWindowVisible(hwnd)` unqualified inside a static member (src/platform/windows/WindowManagerWindows.cpp:130). Class-scope lookup finds the non-static member of that name, which hides the native function, so as written the call is ill-formed. The other calls of the native visibility test (:299, :421, :473) write `::IsWindowVisible`. The model uses the native visibility test, the evident intent. The rectangle read in GetWindowInfo is hidden the same way (next line).
- Win32.WindowManagerWindows.GetWindowInfo: its rectangle read calls `GetWindowRect(hwnd, &rect)` unqualified (src/platform/windows/WindowManagerWindows.cpp:289). Class-scope lookup finds the one-argument member `GetWindowRect(NativeHandle)` (src/platform/windows/WindowManagerWindows.h:42), which hides the native function, so as written the two-argument call is ill-formed. The model reads the native window rectangle, as GetWindowRect itself does with `::GetWindowRect` at :375, the evident intent.
- The code is followed where it differs from the documented behaviour. `GetFocusedWindowInfo` on an uninitialized backend answers `WindowNotFound`, not `NotInitialized`. Enumeration and search on an uninitialized backend return nothing rather than an error.
- There is no threading; the last-error slot is not modelled under concurrency.
- The X11 atom cache and the display connection are not modelled: the backend holds only an "open" flag tied to `m_initialized`.

## Findings

| source | as written | input that shows it | evidently intended | confidence | as-written member | corrected member |
|---|---|---|---|---|---|---|
| src/platform/linux/WindowManagerLinux.cpp:945-953 | `opacity * 0xFFFFFFFF` is a float product. The constant rounds to 2^32, so opacity 1.0 gives 4294967296 as an `unsigned long`. A format-32 property keeps the low 32 bits, so the value sent is 0. | `SetWindowOpacity(w, 1.0f)` | full opacity sends 0xFFFFFFFF, and the value grows with the opacity | high, not executed | X11.OpaqueSentAsTransparent | X11.OpacityValueMonotone |

=== FILE: backend.dfy ===
/**
 * What every platform backend shares (the WindowManagerImplBase contract):
 * the guard order of per-handle operations, the shape of the outcome of a
 * mutation, and the specifications of enumeration, of the title and
 * process filters and of the enumeration callback's early stop.
 */
module Backend {
  import opened CrossWindow
  import Text

  const NotInitializedMessage: string := "WindowManager not initialized"
  const InvalidHandleMessage: string := "Invalid window handle"

  // -------------------------------------------------------------- guards

  /** The guard order of every per-handle operation: NotInitialized is
      reported before any validity probe, InvalidHandle only on an
      initialized backend. */
  predicate FollowsGuard(initialized: bool, valid: bool, code: ErrorCode) {
    (!initialized ==> code == NotInitialized)
    && (initialized && !valid ==> code == InvalidHandle)
  }

  /** A per-handle query: the two guards, then `effect`. `default` is the
      value a default-constructed Result<T> carries. */
  function Guarded<T>(initialized: bool, valid: bool, default: T, effect: Result<T>): Result<T> {
    if !initialized then Result(default, NotInitialized, NotInitializedMessage)
    else if !valid then Result(default, InvalidHandle, InvalidHandleMessage)
    else effect
  }

  /** The fourteen manipulation operations of the backend interface, with
      their arguments (CloseWindow, ForceCloseWindow, MinimizeWindow, ...,
      SetWindowOpacity). */
  datatype Mutation =
    | Close
    | ForceClose
    | Minimize
    | Maximize
    | Restore
    | Show
    | Hide
    | Focus
    | SetAlwaysOnTop(topmost: bool)
    | SetRect(rect: Rect)
    | Move(x: int, y: int)
    | Resize(width: int, height: int)
    | SetTitle(title: string)
    | SetOpacity(opacity: real)

  /** The outcome of a mutation: the ErrorCode it returns and the native
      requests it issued, in order. */
  datatype Outcome<R> = Outcome(code: ErrorCode, requests: seq<R>)

  /** A mutation: the two guards, which issue nothing, then `effect`. */
  function GuardedOutcome<R>(initialized: bool, valid: bool, effect: Outcome<R>): Outcome<R> {
    if !initialized then Outcome(NotInitialized, [])
    else if !valid then Outcome(InvalidHandle, [])
    else effect
  }

  /** Guard precedence for queries: the error code follows the guard order,
      the guards carry the default value and a fixed message, and only a
      valid handle on an initialized backend reaches the effect. */
  lemma GuardedPrecedence<T>(initialized: bool, valid: bool, default: T, effect: Result<T>)
    ensures FollowsGuard(initialized, valid, Guarded(initialized, valid, default, effect).error)
    ensures !(initialized && valid) ==> Guarded(initialized, valid, default, effect).value == default
    ensures !initialized ==> Guarded(initialized, valid, default, effect).errorMessage == NotInitializedMessage
    ensures initialized && !valid ==> Guarded(initialized, valid, default, effect).errorMessage == InvalidHandleMessage
    ensures initialized && valid ==> Guarded(initialized, valid, default, effect) == effect
  {
  }

  /** Guard precedence for mutations: a failed guard issues no native request. */
  lemma GuardedOutcomePrecedence<R>(initialized: bool, valid: bool, effect: Outcome<R>)
    ensures FollowsGuard(initialized, valid, GuardedOutcome(initialized, valid, effect).code)
    ensures !(initialized && valid) ==> GuardedOutcome(initialized, valid, effect).requests == []
    ensures initialized && valid ==> GuardedOutcome(initialized, valid, effect) == effect
  {
  }

  // --------------------------------------------------------- enumeration

  /** What one candidate contributes to an enumeration. */
  function Reported(found: Option<WindowInfo>): seq<WindowInfo> {
    if found.Some? then [found.value] else []
  }

  /** The windows an enumeration reports: the candidates in order, each
      replaced by its info when `lookup` yields one and skipped otherwise.
      Defined from the last candidate, the way an enumeration loop grows it. */
  function Collect<H>(hs: seq<H>, lookup: H -> Option<WindowInfo>): seq<WindowInfo> {
    if |hs| == 0 then []
    else Collect(hs[..|hs| - 1], lookup) + Reported(lookup(hs[|hs| - 1]))
  }

  /** One step of an enumeration loop over hs[..i]. */
  lemma CollectStep<H>(hs: seq<H>, i: int, lookup: H -> Option<WindowInfo>)
    requires 0 <= i < |hs|
    ensures Collect(hs[..i + 1], lookup) == Collect(hs[..i], lookup) + Reported(lookup(hs[i]))
  {
    assert hs[..i + 1][..i] == hs[..i];
  }

  /** Collect distributes over concatenation: the reported order is the
      candidate order. */
  lemma {:induction false} CollectAppend<H>(a: seq<H>, b: seq<H>, lookup: H -> Option<WindowInfo>)
    ensures Collect(a + b, lookup) == Collect(a, lookup) + Collect(b, lookup)
    decreases |b|
  {
    if |b| == 0 {
      assert a + b == a;
    } else {
      var n := |b| - 1;
      assert (a + b)[..|a + b| - 1] == a + b[..n];
      assert (a + b)[|a + b| - 1] == b[n];
      CollectAppend(a, b[..n], lookup);
    }
  }

  /** Every reported info is the lookup of some candidate, and every
      candidate whose lookup succeeds is reported. */
  lemma {:induction false} CollectMembers<H>(hs: seq<H>, lookup: H -> Option<WindowInfo>, info: WindowInfo)
    ensures info in Collect(hs, lookup) <==> exists k :: 0 <= k < |hs| && lookup(hs[k]) == Some(info)
    decreases |hs|
  {
    if |hs| > 0 {
      var init := hs[..|hs| - 1];
      CollectMembers(init, lookup, info);
      if exists k :: 0 <= k < |hs| && lookup(hs[k]) == Some(info) {
        var k :| 0 <= k < |hs| && lookup(hs[k]) == Some(info);
        if k < |hs| - 1 {
          assert init[k] == hs[k];
        }
      }
      if exists k :: 0 <= k < |init| && lookup(init[k]) == Some(info) {
        var k :| 0 <= k < |init| && lookup(init[k]) == Some(info);
        assert hs[k] == init[k];
      }
    }
  }

  /** Enumeration never reports more windows than there are candidates. */
  lemma {:induction false} CollectLength<H>(hs: seq<H>, lookup: H -> Option<WindowInfo>)
    ensures |Collect(hs, lookup)| <= |hs|
    decreases |hs|
  {
    if |hs| > 0 {
      CollectLength(hs[..|hs| - 1], lookup);
    }
  }

  // ------------------------------------------------------------- filters

  /** The in-order subsequence of `infos` that `keep` accepts. */
  function Filter(infos: seq<WindowInfo>, keep: WindowInfo -> bool): seq<WindowInfo> {
    if |infos| == 0 then []
    else Filter(infos[..|infos| - 1], keep) + (if keep(infos[|infos| - 1]) then [infos[|infos| - 1]] else [])
  }

  /** An info is kept iff it was there and `keep` accepts it. */
  lemma {:induction false} FilterMembers(infos: seq<WindowInfo>, keep: WindowInfo -> bool, info: WindowInfo)
    ensures info in Filter(infos, keep) <==> info in infos && keep(info)
    decreases |infos|
  {
    if |infos| > 0 {
      FilterMembers(infos[..|infos| - 1], keep, info);
      assert infos == infos[..|infos| - 1] + [infos[|infos| - 1]];
    }
  }

  /** Filtering distributes over concatenation, so it keeps the order. */
  lemma {:induction false} FilterAppend(a: seq<WindowInfo>, b: seq<WindowInfo>, keep: WindowInfo -> bool)
    ensures Filter(a + b, keep) == Filter(a, keep) + Filter(b, keep)
    decreases |b|
  {
    if |b| == 0 {
      assert a + b == a;
    } else {
      var n := |b| - 1;
      assert (a + b)[..|a + b| - 1] == a + b[..n];
      assert (a + b)[|a + b| - 1] == b[n];
      FilterAppend(a, b[..n], keep);
    }
  }

  /** Filtering what one candidate contributes. */
  lemma FilterReported(found: Option<WindowInfo>, keep: WindowInfo -> bool)
    ensures Filter(Reported(found), keep) == if found.Some? && keep(found.value) then [found.value] else []
  {
    if found.Some? {
      assert [found.value][..0] == [];
    }
  }

  /** One step of a filtering enumeration loop over hs[..i]: the i-th
      candidate adds its filtered contribution. */
  lemma FilterCollectStep<H>(hs: seq<H>, i: int, lookup: H -> Option<WindowInfo>, keep: WindowInfo -> bool)
    requires 0 <= i < |hs|
    ensures Filter(Collect(hs[..i + 1], lookup), keep)
            == Filter(Collect(hs[..i], lookup), keep) + Filter(Reported(lookup(hs[i])), keep)
  {
    CollectStep(hs, i, lookup);
    FilterAppend(Collect(hs[..i], lookup), Reported(lookup(hs[i])), keep);
  }

  /** One step of a loop that filters infos[..i]. */
  lemma FilterStep(infos: seq<WindowInfo>, i: int, keep: WindowInfo -> bool)
    requires 0 <= i < |infos|
    ensures Filter(infos[..i + 1], keep) == Filter(infos[..i], keep) + (if keep(infos[i]) then [infos[i]] else [])
  {
    assert infos[..i + 1][..i] == infos[..i];
  }

  /** Filtering twice by the same predicate is filtering once. */
  lemma {:induction false} FilterIdempotent(infos: seq<WindowInfo>, keep: WindowInfo -> bool)
    ensures Filter(Filter(infos, keep), keep) == Filter(infos, keep)
    decreases |infos|
  {
    if |infos| > 0 {
      var init := infos[..|infos| - 1];
      var last := infos[|infos| - 1];
      var kept := if keep(last) then [last] else [];
      FilterIdempotent(init, keep);
      FilterAppend(Filter(init, keep), kept, keep);
      if keep(last) {
        assert [last][..0] == [];
      }
    }
  }

  /** The title filter of FindWindowsByTitle: an exact substring when
      case-sensitive, ToLowerCompare otherwise. */
  function ByTitle(pattern: string, caseSensitive: bool): WindowInfo -> bool {
    (info: WindowInfo) => if caseSensitive then Text.Contains(info.title, pattern) else Text.ToLowerCompare(info.title, pattern)
  }

  /** The process filter of FindWindowsByProcess: always case-insensitive. */
  function ByProcess(processName: string): WindowInfo -> bool {
    (info: WindowInfo) => Text.ToLowerCompare(info.processName, processName)
  }

  /** The empty title pattern keeps every window, in either case mode. */
  lemma {:induction false} EmptyTitlePatternKeepsAll(infos: seq<WindowInfo>, caseSensitive: bool)
    ensures Filter(infos, ByTitle("", caseSensitive)) == infos
    decreases |infos|
  {
    if |infos| > 0 {
      Text.EmptyPatternMatchesAll(infos[|infos| - 1].title);
      EmptyTitlePatternKeepsAll(infos[..|infos| - 1], caseSensitive);
      assert infos == infos[..|infos| - 1] + [infos[|infos| - 1]];
    }
  }

  /** A case-sensitive title search finds a subset of what the
      case-insensitive one finds. */
  lemma {:induction false} CaseSensitiveSearchIsNarrower(infos: seq<WindowInfo>, pattern: string, info: WindowInfo)
    ensures info in Filter(infos, ByTitle(pattern, true)) ==> info in Filter(infos, ByTitle(pattern, false))
  {
    FilterMembers(infos, ByTitle(pattern, true), info);
    FilterMembers(infos, ByTitle(pattern, false), info);
    Text.CaseSensitiveMatchIsInsensitiveMatch(info.title, pattern);
  }

  // ------------------------------------------------- callback and stop

  /** The infos an EnumWindowsCallback is invoked on: each in order, up to
      and including the first one it answers false to. */
  function VisitUntilStop(infos: seq<WindowInfo>, callback: WindowInfo -> bool): seq<WindowInfo> {
    if |infos| == 0 then []
    else if !callback(infos[0]) then [infos[0]]
    else [infos[0]] + VisitUntilStop(infos[1..], callback)
  }

  /** The callback is invoked on every window of a prefix it accepts, and
      then on the rest as if enumeration started there. */
  lemma {:induction false} VisitAcceptedPrefix(pre: seq<WindowInfo>, rest: seq<WindowInfo>, callback: WindowInfo -> bool)
    requires Accepts(callback, pre)
    ensures VisitUntilStop(pre + rest, callback) == pre + VisitUntilStop(rest, callback)
  {
    if |pre| == 0 {
      assert pre + rest == rest;
    } else {
      assert (pre + rest)[1..] == pre[1..] + rest;
      assert callback(pre[0]);
      VisitAcceptedPrefix(pre[1..], rest, callback);
    }
  }

  /** The enumeration around the i-th candidate: what comes before it, what
      it reports, and what comes after it. */
  lemma CollectSplit<H>(hs: seq<H>, i: int, lookup: H -> Option<WindowInfo>)
    requires 0 <= i < |hs|
    ensures Collect(hs, lookup)
            == Collect(hs[..i], lookup) + (Reported(lookup(hs[i])) + Collect(hs[i + 1..], lookup))
  {
    CollectAt(hs, i + 1, lookup);
    CollectStep(hs, i, lookup);
    AppendAssoc(Collect(hs[..i], lookup), Reported(lookup(hs[i])), Collect(hs[i + 1..], lookup));
  }

  /** The enumeration of hs is that of a prefix followed by that of the rest. */
  lemma CollectAt<H>(hs: seq<H>, j: int, lookup: H -> Option<WindowInfo>)
    requires 0 <= j <= |hs|
    ensures Collect(hs, lookup) == Collect(hs[..j], lookup) + Collect(hs[j..], lookup)
  {
    SliceJoin(hs, j);
    CollectAppend(hs[..j], hs[j..], lookup);
  }

  lemma AppendAssoc<T>(a: seq<T>, b: seq<T>, c: seq<T>)
    ensures (a + b) + c == a + (b + c)
  {
  }

  lemma TakeAll<H>(hs: seq<H>)
    ensures hs[..|hs|] == hs
  {
  }

  lemma SliceJoin<H>(hs: seq<H>, j: int)
    requires 0 <= j <= |hs|
    ensures hs[..j] + hs[j..] == hs
  {
  }

  /** The callback answers true to every one of `infos`. */
  predicate Accepts(callback: WindowInfo -> bool, infos: seq<WindowInfo>) {
    forall k :: 0 <= k < |infos| ==> callback(infos[k])
  }

  /** Acceptance of a prefix extends by one accepted window. */
  lemma AcceptsStep(callback: WindowInfo -> bool, pre: seq<WindowInfo>, added: seq<WindowInfo>)
    requires Accepts(callback, pre) && Accepts(callback, added)
    ensures Accepts(callback, pre + added)
  {
  }

  /** An enumeration that reaches a window the callback answers false to
      stops right after it. */
  lemma VisitStopsAt(pre: seq<WindowInfo>, x: WindowInfo, rest: seq<WindowInfo>, callback: WindowInfo -> bool)
    requires Accepts(callback, pre)
    requires !callback(x)
    ensures VisitUntilStop(pre + ([x] + rest), callback) == pre + [x]
    ensures !Accepts(callback, pre + ([x] + rest))
  {
    VisitAcceptedPrefix(pre, [x] + rest, callback);
    assert ([x] + rest)[0] == x;
    assert (pre + ([x] + rest))[|pre|] == x;
  }

  /** An enumeration whose callback answers false at candidate i has handed
      over exactly the windows up to i, and the callback does not accept
      all of them. */
  lemma CollectStopsAt<H>(hs: seq<H>, i: int, lookup: H -> Option<WindowInfo>, callback: WindowInfo -> bool)
    requires 0 <= i < |hs|
    requires Accepts(callback, Collect(hs[..i], lookup))
    requires lookup(hs[i]).Some? && !callback(lookup(hs[i]).value)
    ensures VisitUntilStop(Collect(hs, lookup), callback) == Collect(hs[..i + 1], lookup)
    ensures !Accepts(callback, Collect(hs, lookup))
  {
    CollectSplit(hs, i, lookup);
    CollectStep(hs, i, lookup);
    VisitStopsAt(Collect(hs[..i], lookup), lookup(hs[i]).value, Collect(hs[i + 1..], lookup), callback);
  }

  /** An enumeration loop that runs to the end without a false answer has
      visited exactly what VisitUntilStop prescribes. */
  lemma EnumerationRunsThrough(infos: seq<WindowInfo>, callback: WindowInfo -> bool)
    requires Accepts(callback, infos)
    ensures VisitUntilStop(infos, callback) == infos
  {
    VisitAcceptedPrefix(infos, [], callback);
    assert infos + [] == infos;
  }

  /** The callback sees a prefix of the windows; it answered true to every
      one but possibly the last; it stopped early only on a false answer; and
      a callback that always answers true sees every window. */
  lemma {:induction false} VisitUntilStopSpec(infos: seq<WindowInfo>, callback: WindowInfo -> bool)
    ensures var r := VisitUntilStop(infos, callback);
      |r| <= |infos| && r == infos[..|r|]
      && (forall k :: 0 <= k < |r| - 1 ==> callback(r[k]))
      && (|r| < |infos| ==> |r| > 0 && !callback(r[|r| - 1]))
      && ((forall k :: 0 <= k < |infos| ==> callback(infos[k])) ==> r == infos)
  {
    if infos != [] && callback(infos[0]) {
      VisitUntilStopSpec(infos[1..], callback);
      var rest := VisitUntilStop(infos[1..], callback);
      assert VisitUntilStop(infos, callback) == [infos[0]] + rest;
      if forall k :: 0 <= k < |infos| ==> callback(infos[k]) {
        assert forall k :: 0 <= k < |infos[1..]| ==> callback(infos[1..][k]) by {
          forall k | 0 <= k < |infos[1..]| ensures callback(infos[1..][k]) {
            assert infos[1..][k] == infos[k + 1];
          }
        }
      }
    }
  }

  // ------------------------------------------------------------ opacity

  /** `std::max(0.0f, std::min(1.0f, opacity))`, on exact reals. */
  function ClampOpacity(opacity: real): (c: real)
    ensures 0.0 <= c <= 1.0
    ensures 0.0 <= opacity <= 1.0 ==> c == opacity
    ensures opacity < 0.0 ==> c == 0.0
    ensures opacity > 1.0 ==> c == 1.0
  {
    if opacity < 0.0 then 0.0 else if opacity > 1.0 then 1.0 else opacity
  }
}

=== FILE: cross_window.dfy ===
/**
 * The shared data model of CrossWindow: handles, rectangles, the window
 * state bit set, the window snapshot, the error taxonomy and the
 * Result wrapper every query returns.
 */
module CrossWindow {

  /** A native window handle. 0 is the null handle (nullptr on Win32,
      None on X11); any other value names a window owned by another process. */
  type Handle = nat
  const NullHandle: Handle := 0

  /** C++ uint32_t. */
  type uint32 = x: int | 0 <= x < 0x1_0000_0000

  datatype Option<T> = None | Some(value: T)

  // ---------------------------------------------------------------- Rect

  /** Window geometry; (x, y) is the top-left corner in screen coordinates.
      No sign or positivity invariant is imposed. */
  datatype Rect = Rect(x: int, y: int, width: int, height: int)

  /** The value of a default-constructed Rect. */
  function DefaultRect(): (r: Rect)
    ensures r.x == 0 && r.y == 0 && r.width == 0 && r.height == 0
  {
    Rect(0, 0, 0, 0)
  }

  // --------------------------------------------------------- WindowState

  /** The WindowState enum class over uint32_t. */
  type WindowState = bv32

  const Normal: WindowState := 0
  const Minimized: WindowState := 1
  const Maximized: WindowState := 2
  const Fullscreen: WindowState := 4
  const Hidden: WindowState := 8
  const Focused: WindowState := 16
  const AlwaysOnTop: WindowState := 32

  /** The six named flags, in declaration order. */
  const Flags: seq<WindowState> := [Minimized, Maximized, Fullscreen, Hidden, Focused, AlwaysOnTop]

  /** The bits covered by some named flag. */
  const FlagMask: WindowState := 0x3F

  /** HasFlag(state, flag): some bit of `flag` is set in `state`. */
  predicate HasFlag(state: WindowState, flag: WindowState) {
    state & flag != 0
  }

  /** operator| : a named flag is set in the union iff it is set in either side. */
  function Or(a: WindowState, b: WindowState): (r: WindowState)
    ensures HasFlag(r, Minimized) <==> HasFlag(a, Minimized) || HasFlag(b, Minimized)
    ensures HasFlag(r, Maximized) <==> HasFlag(a, Maximized) || HasFlag(b, Maximized)
    ensures HasFlag(r, Fullscreen) <==> HasFlag(a, Fullscreen) || HasFlag(b, Fullscreen)
    ensures HasFlag(r, Hidden) <==> HasFlag(a, Hidden) || HasFlag(b, Hidden)
    ensures HasFlag(r, Focused) <==> HasFlag(a, Focused) || HasFlag(b, Focused)
    ensures HasFlag(r, AlwaysOnTop) <==> HasFlag(a, AlwaysOnTop) || HasFlag(b, AlwaysOnTop)
  {
    a | b
  }

  /** operator& : a named flag is set in the intersection iff it is set in both. */
  function And(a: WindowState, b: WindowState): (r: WindowState)
    ensures HasFlag(r, Minimized) <==> HasFlag(a, Minimized) && HasFlag(b, Minimized)
    ensures HasFlag(r, Maximized) <==> HasFlag(a, Maximized) && HasFlag(b, Maximized)
    ensures HasFlag(r, Fullscreen) <==> HasFlag(a, Fullscreen) && HasFlag(b, Fullscreen)
    ensures HasFlag(r, Hidden) <==> HasFlag(a, Hidden) && HasFlag(b, Hidden)
    ensures HasFlag(r, Focused) <==> HasFlag(a, Focused) && HasFlag(b, Focused)
    ensures HasFlag(r, AlwaysOnTop) <==> HasFlag(a, AlwaysOnTop) && HasFlag(b, AlwaysOnTop)
  {
    a & b
  }

  /** Normal is 0 and the six flags are distinct single bits 1, 2, 4, ..., 32. */
  lemma FlagsAreDistinctSingleBits()
    ensures Normal == 0
    ensures |Flags| == 6
    ensures forall i :: 0 <= i < |Flags| ==> Flags[i] == (1 as bv32) << i
    ensures forall i, j :: 0 <= i < j < |Flags| ==> Flags[i] & Flags[j] == 0
    ensures forall f :: f in Flags ==> f & FlagMask == f
  {
  }

  /** `|` is commutative, associative and idempotent, with Normal as identity;
      `&` with Normal is Normal. */
  lemma OrAndLaws(a: WindowState, b: WindowState, c: WindowState)
    ensures Or(a, b) == Or(b, a)
    ensures Or(Or(a, b), c) == Or(a, Or(b, c))
    ensures Or(a, a) == a
    ensures Or(a, Normal) == a && Or(Normal, a) == a
    ensures And(a, Normal) == Normal && And(Normal, a) == Normal
  {
  }

  /** Nothing is set in Normal, and Normal is never "set" in anything. */
  lemma HasFlagNormal(s: WindowState, f: WindowState)
    ensures !HasFlag(Normal, f)
    ensures !HasFlag(s, Normal)
  {
  }

  /** The state whose named flags are exactly the given booleans; no bit outside
      the six flags is set. Both backends derive their state in this shape. */
  function StateOf(minimized: bool, maximized: bool, fullscreen: bool,
                   hidden: bool, focused: bool, alwaysOnTop: bool): (s: WindowState)
    ensures HasFlag(s, Minimized) <==> minimized
    ensures HasFlag(s, Maximized) <==> maximized
    ensures HasFlag(s, Fullscreen) <==> fullscreen
    ensures HasFlag(s, Hidden) <==> hidden
    ensures HasFlag(s, Focused) <==> focused
    ensures HasFlag(s, AlwaysOnTop) <==> alwaysOnTop
    ensures s & !FlagMask == 0
  {
    (if minimized then Minimized else Normal)
    | (if maximized then Maximized else Normal)
    | (if fullscreen then Fullscreen else Normal)
    | (if hidden then Hidden else Normal)
    | (if focused then Focused else Normal)
    | (if alwaysOnTop then AlwaysOnTop else Normal)
  }

  // ---------------------------------------------------------- WindowInfo

  /** A point-in-time snapshot of one window. */
  datatype WindowInfo = WindowInfo(
    handle: Handle,
    title: string,
    className: string,
    rect: Rect,
    state: WindowState,
    processId: uint32,
    processName: string,
    isVisible: bool)

  /** The value of a default-constructed WindowInfo. */
  function DefaultWindowInfo(): (info: WindowInfo)
    ensures info.state == Normal
    ensures info.processId == 0 && !info.isVisible
    ensures info.rect == Rect(0, 0, 0, 0)
    ensures info.handle == NullHandle && info.title == "" && info.className == "" && info.processName == ""
  {
    WindowInfo(NullHandle, "", "", DefaultRect(), Normal, 0, "", false)
  }

  // -------------------------------------------------- ErrorCode / Result

  /** The closed error taxonomy. */
  datatype ErrorCode =
    | Success
    | InvalidHandle
    | AccessDenied
    | WindowNotFound
    | OperationFailed
    | NotSupported
    | NotInitialized

  /** Result<T>: a value, an error code and an advisory message. */
  datatype Result<T> = Result(value: T, error: ErrorCode, errorMessage: string) {
    /** ok(): no error information needs to be consulted. */
    predicate Ok() {
      error == Success
    }
  }

  /** A default-constructed Result holding `value`. */
  function DefaultResult<T>(value: T): Result<T> {
    Result(value, Success, "")
  }

  /** A default-constructed Result is ok, and ok() is exactly error == Success. */
  lemma DefaultResultIsOk<T>(value: T, r: Result<T>)
    ensures DefaultResult(value).Ok() && DefaultResult(value).errorMessage == ""
    ensures r.Ok() <==> r.error == Success
  {
  }
}

=== FILE: facade.dfy ===
/**
 * The public WindowManager: it owns exactly one backend, chosen when the
 * library is built, and forwards every operation to it unchanged. The
 * native world each backend queries is passed in as a `World` value; a
 * backend consults only its own half.
 */
module Facade {
  import opened CrossWindow
  import opened Backend
  import X11
  import Win32
  import StubBackend = Stub

  /** The platform the library is built for (CROSSWINDOW_WINDOWS,
      CROSSWINDOW_LINUX, CROSSWINDOW_MACOS, or none of them). */
  datatype Platform = Windows | Linux | MacOS | Stub

  /** The display server and the desktop as the two native backends see them. */
  datatype World = World(server: X11.Server, desktop: Win32.Desktop)

  /** The backend object the facade owns. */
  datatype Impl =
    | LinuxImpl(linux: X11.WindowManagerLinux)
    | WindowsImpl(windows: Win32.WindowManagerWindows)
    | StubImpl(stub: StubBackend.WindowManagerStub)

  function PlatformOf(b: Impl): Platform {
    match b
    case LinuxImpl(_) => Linux
    case WindowsImpl(_) => Windows
    case StubImpl(_) => Stub
  }

  /** GetPlatformName: the name of the build platform. */
  function GetPlatformName(p: Platform): (name: string)
    ensures name == "Windows" || name == "Linux" || name == "macOS" || name == "Stub"
  {
    match p
    case Windows => "Windows"
    case Linux => "Linux"
    case MacOS => "macOS"
    case Stub => "Stub"
  }

  /** Each platform has its own name, so the name identifies the platform. */
  lemma PlatformNamesIdentifyPlatform(p: Platform, q: Platform)
    ensures GetPlatformName(p) == GetPlatformName(q) <==> p == q
  {
  }

  class WindowManager {
    /** The platform the library was built for. */
    const platform: Platform
    /** m_impl; None only in a manager that has been moved from. */
    var impl: Option<Impl>

    /** The backend object, if any. */
    function Footprint(): set<object>
      reads this
    {
      if impl.None? then {}
      else match impl.value
        case LinuxImpl(x) => {x}
        case WindowsImpl(w) => {w}
        case StubImpl(s) => {s}
    }

    /** The owned backend is the one of the build platform, and the X11
        backend has its display open exactly while it is initialized. */
    ghost predicate Valid()
      reads this, Footprint()
    {
      impl.Some? ==>
        PlatformOf(impl.value) == platform
        && (impl.value.LinuxImpl? ==> impl.value.linux.Valid())
    }

    /** The constructor installs a fresh, uninitialized backend of the build
        platform. */
    constructor (platform: Platform)
      requires platform != MacOS
      ensures this.platform == platform
      ensures impl.Some? && PlatformOf(impl.value) == platform
      ensures fresh(Footprint())
      ensures Valid() && !IsInitialized()
    {
      this.platform := platform;
      match platform
      case Windows =>
        var w := new Win32.WindowManagerWindows();
        impl := Some(WindowsImpl(w));
      case Linux =>
        var x := new X11.WindowManagerLinux();
        impl := Some(LinuxImpl(x));
      case Stub =>
        var s := new StubBackend.WindowManagerStub();
        impl := Some(StubImpl(s));
    }

    /** The move constructor: takes over the other manager's backend and
        leaves the other one without any. */
    constructor MoveFrom(other: WindowManager)
      modifies other
      ensures platform == other.platform
      ensures impl == old(other.impl) && other.impl.None?
    {
      platform := other.platform;
      impl := other.impl;
      other.impl := None;
    }

    function IsInitialized(): bool
      requires impl.Some?
      reads this, Footprint()
    {
      match impl.value
      case LinuxImpl(x) => x.IsInitialized()
      case WindowsImpl(w) => w.IsInitialized()
      case StubImpl(s) => s.IsInitialized()
    }

    /** The destructor: shuts the backend down exactly when there is one and
        it is initialized; otherwise touches nothing. */
    method Destroy() returns (shutDown: bool)
      requires Valid()
      modifies Footprint()
      ensures shutDown <==> impl.Some? && old(IsInitialized())
      ensures shutDown ==> !IsInitialized()
      ensures !shutDown ==> unchanged(Footprint())
    {
      shutDown := false;
      if impl.Some? && IsInitialized() {
        Shutdown();
        shutDown := true;
      }
    }

    method Initialize(world: World) returns (ok: bool)
      requires impl.Some? && Valid()
      modifies Footprint()
      ensures Valid()
      ensures ok == IsInitialized()
      ensures ok ==> GetLastError() == old(GetLastError())
      ensures match impl.value
        case LinuxImpl(x) =>
          (ok <==> old(x.initialized) || world.server.displayAvailable)
          && (!ok ==> x.lastError == X11.OpenDisplayFailedMessage)
        case WindowsImpl(w) => ok
        case StubImpl(s) => !ok && s.lastError == StubBackend.PlatformNotSupportedMessage
    {
      match impl.value
      case LinuxImpl(x) => ok := x.Initialize(world.server);
      case WindowsImpl(w) => ok := w.Initialize();
      case StubImpl(s) => ok := s.Initialize();
    }

    method Shutdown()
      requires impl.Some? && Valid()
      modifies Footprint()
      ensures Valid() && !IsInitialized()
      ensures GetLastError() == old(GetLastError())
    {
      match impl.value
      case LinuxImpl(x) => x.Shutdown();
      case WindowsImpl(w) => w.Shutdown();
      case StubImpl(s) => s.Shutdown();
    }

    /** An uninitialized backend records the not-initialized message;
        otherwise the backend is left as it was. */
    method GetAllWindows(world: World) returns (result: seq<WindowInfo>)
      requires impl.Some? && Valid()
      modifies Footprint()
      ensures Valid()
      ensures match impl.value
        case LinuxImpl(x) =>
          result == X11.AllWindows(x.initialized, world.server)
          && x.initialized == old(x.initialized) && x.displayOpen == old(x.displayOpen)
          && x.lastError == (if x.initialized then old(x.lastError) else NotInitializedMessage)
        case WindowsImpl(w) =>
          result == Win32.AllWindows(w.initialized, world.desktop)
          && w.initialized == old(w.initialized)
          && w.lastError == (if w.initialized then old(w.lastError) else NotInitializedMessage)
        case StubImpl(_) => |result| == 0 && unchanged(Footprint())
    {
      match impl.value
      case LinuxImpl(x) => result := x.GetAllWindows(world.server);
      case WindowsImpl(w) => result := w.GetAllWindows(world.desktop);
      case StubImpl(s) => result := s.GetAllWindows();
    }

    /** Returns the windows the callback was invoked on, in order. */
    method EnumerateWindows(world: World, callback: WindowInfo -> bool) returns (visited: seq<WindowInfo>)
      requires impl.Some?
      ensures match impl.value
        case LinuxImpl(x) => visited == VisitUntilStop(X11.AllWindows(x.initialized, world.server), callback)
        case WindowsImpl(w) => visited == VisitUntilStop(Win32.AllWindows(w.initialized, world.desktop), callback)
        case StubImpl(_) => |visited| == 0
    {
      match impl.value
      case LinuxImpl(x) => visited := x.EnumerateWindows(world.server, callback);
      case WindowsImpl(w) => visited := w.EnumerateWindows(world.desktop, callback);
      case StubImpl(s) => visited := s.EnumerateWindows(callback);
    }

    /** The searches leave the backend as it was. */
    method FindWindowsByTitle(world: World, titlePattern: string, caseSensitive: bool)
      returns (result: seq<WindowInfo>)
      requires impl.Some? && Valid()
      modifies Footprint()
      ensures Valid() && unchanged(Footprint())
      ensures match impl.value
        case LinuxImpl(x) =>
          result == Filter(X11.AllWindows(x.initialized, world.server), ByTitle(titlePattern, caseSensitive))
        case WindowsImpl(w) =>
          result == Filter(Win32.AllWindows(old(w.initialized), world.desktop), ByTitle(titlePattern, caseSensitive))
        case StubImpl(_) => |result| == 0
    {
      match impl.value
      case LinuxImpl(x) => result := x.FindWindowsByTitle(world.server, titlePattern, caseSensitive);
      case WindowsImpl(w) => result := w.FindWindowsByTitle(world.desktop, titlePattern, caseSensitive);
      case StubImpl(s) => result := s.FindWindowsByTitle(titlePattern, caseSensitive);
    }

    method FindWindowsByProcess(world: World, processName: string) returns (result: seq<WindowInfo>)
      requires impl.Some? && Valid()
      modifies Footprint()
      ensures Valid() && unchanged(Footprint())
      ensures match impl.value
        case LinuxImpl(x) => result == Filter(X11.AllWindows(x.initialized, world.server), ByProcess(processName))
        case WindowsImpl(w) => result == Filter(Win32.AllWindows(old(w.initialized), world.desktop), ByProcess(processName))
        case StubImpl(_) => |result| == 0
    {
      match impl.value
      case LinuxImpl(x) => result := x.FindWindowsByProcess(world.server, processName);
      case WindowsImpl(w) => result := w.FindWindowsByProcess(world.desktop, processName);
      case StubImpl(s) => result := s.FindWindowsByProcess(processName);
    }

    method GetWindowInfo(world: World, handle: Handle) returns (result: Result<WindowInfo>)
      requires impl.Some?
      ensures match impl.value
        case LinuxImpl(x) => result == X11.InfoQuery(x.initialized, world.server, handle)
        case WindowsImpl(w) => result == Win32.InfoQuery(w.initialized, world.desktop, handle)
        case StubImpl(_) => result == StubBackend.Unsupported(DefaultWindowInfo())
    {
      match impl.value
      case LinuxImpl(x) => result := x.GetWindowInfo(world.server, handle);
      case WindowsImpl(w) => result := w.GetWindowInfo(world.desktop, handle);
      case StubImpl(s) => result := s.GetWindowInfo(handle);
    }

    method GetWindowTitle(world: World, handle: Handle) returns (result: Result<string>)
      requires impl.Some?
      ensures match impl.value
        case LinuxImpl(x) => result == X11.TitleQuery(x.initialized, world.server, handle)
        case WindowsImpl(w) => result == Win32.TitleQuery(w.initialized, world.desktop, handle)
        case StubImpl(_) => result == StubBackend.Unsupported("")
    {
      match impl.value
      case LinuxImpl(x) => result := x.GetWindowTitle(world.server, handle);
      case WindowsImpl(w) => result := w.GetWindowTitle(world.desktop, handle);
      case StubImpl(s) => result := s.GetWindowTitle(handle);
    }

    method GetWindowRect(world: World, handle: Handle) returns (result: Result<Rect>)
      requires impl.Some?
      ensures match impl.value
        case LinuxImpl(x) => result == X11.RectQuery(x.initialized, world.server, handle)
        case WindowsImpl(w) => result == Win32.RectQuery(w.initialized, world.desktop, handle)
        case StubImpl(_) => result == StubBackend.Unsupported(DefaultRect())
    {
      match impl.value
      case LinuxImpl(x) => result := x.GetWindowRect(world.server, handle);
      case WindowsImpl(w) => result := w.GetWindowRect(world.desktop, handle);
      case StubImpl(s) => result := s.GetWindowRect(handle);
    }

    method GetWindowState(world: World, handle: Handle) returns (result: Result<WindowState>)
      requires impl.Some?
      ensures match impl.value
        case LinuxImpl(x) => result == X11.StateQuery(x.initialized, world.server, handle)
        case WindowsImpl(w) => result == Win32.StateQuery(w.initialized, world.desktop, handle)
        case StubImpl(_) => result == StubBackend.Unsupported(Normal)
    {
      match impl.value
      case LinuxImpl(x) => result := x.GetWindowState(world.server, handle);
      case WindowsImpl(w) => result := w.GetWindowState(world.desktop, handle);
      case StubImpl(s) => result := s.GetWindowState(handle);
    }

    method GetWindowProcessId(world: World, handle: Handle) returns (result: Result<uint32>)
      requires impl.Some?
      ensures match impl.value
        case LinuxImpl(x) => result == X11.PidQuery(x.initialized, world.server, handle)
        case WindowsImpl(w) => result == Win32.PidQuery(w.initialized, world.desktop, handle)
        case StubImpl(_) => result == StubBackend.Unsupported(0 as uint32)
    {
      match impl.value
      case LinuxImpl(x) => result := x.GetWindowProcessId(world.server, handle);
      case WindowsImpl(w) => result := w.GetWindowProcessId(world.desktop, handle);
      case StubImpl(s) => result := s.GetWindowProcessId(handle);
    }

    method IsWindowVisible(world: World, handle: Handle) returns (visible: bool)
      requires impl.Some?
      ensures match impl.value
        case LinuxImpl(x) =>
          visible <==> x.initialized && handle in world.server.alive && handle in world.server.attributes
                       && world.server.attributes[handle].viewable
        case WindowsImpl(w) => visible <==> w.initialized && Win32.NativeVisible(world.desktop, handle)
        case StubImpl(_) => !visible
    {
      match impl.value
      case LinuxImpl(x) => visible := x.IsWindowVisible(world.server, handle);
      case WindowsImpl(w) => visible := w.IsWindowVisible(world.desktop, handle);
      case StubImpl(s) => visible := s.IsWindowVisible(handle);
    }

    method IsValidWindow(world: World, handle: Handle) returns (valid: bool)
      requires impl.Some?
      ensures match impl.value
        case LinuxImpl(x) => valid <==> x.initialized && handle in world.server.alive
        case WindowsImpl(w) => valid <==> w.initialized && handle in world.desktop.windows
        case StubImpl(_) => !valid
    {
      match impl.value
      case LinuxImpl(x) => valid := x.IsValidWindow(world.server, handle);
      case WindowsImpl(w) => valid := w.IsValidWindow(world.desktop, handle);
      case StubImpl(s) => valid := s.IsValidWindow(handle);
    }

    method GetFocusedWindow(world: World) returns (focused: Handle)
      requires impl.Some?
      ensures match impl.value
        case LinuxImpl(x) => focused == X11.FocusedHandle(x.initialized, world.server)
        case WindowsImpl(w) => focused == Win32.FocusedHandle(w.initialized, world.desktop)
        case StubImpl(_) => focused == NullHandle
    {
      match impl.value
      case LinuxImpl(x) => focused := x.GetFocusedWindow(world.server);
      case WindowsImpl(w) => focused := w.GetFocusedWindow(world.desktop);
      case StubImpl(s) => focused := s.GetFocusedWindow();
    }

    method GetFocusedWindowInfo(world: World) returns (result: Result<WindowInfo>)
      requires impl.Some?
      ensures match impl.value
        case LinuxImpl(x) => result == X11.FocusedInfoQuery(x.initialized, world.server)
        case WindowsImpl(w) => result == Win32.FocusedInfoQuery(w.initialized, world.desktop)
        case StubImpl(_) => result == StubBackend.Unsupported(DefaultWindowInfo())
    {
      match impl.value
      case LinuxImpl(x) => result := x.GetFocusedWindowInfo(world.server);
      case WindowsImpl(w) => result := w.GetFocusedWindowInfo(world.desktop);
      case StubImpl(s) => result := s.GetFocusedWindowInfo();
    }

    /** The fourteen manipulation methods: the backend's error code. */
    method Mutate(world: World, handle: Handle, m: Mutation) returns (code: ErrorCode)
      requires impl.Some?
      ensures match impl.value
        case LinuxImpl(x) => code == X11.MutationOutcome(x.initialized, world.server, handle, m).code
        case WindowsImpl(w) => code == Win32.MutationOutcome(w.initialized, world.desktop, handle, m).code
        case StubImpl(_) => code == NotSupported
    {
      match impl.value
      case LinuxImpl(x) =>
        var outcome := x.Mutate(world.server, handle, m);
        code := outcome.code;
      case WindowsImpl(w) =>
        var outcome := w.Mutate(world.desktop, handle, m);
        code := outcome.code;
      case StubImpl(s) =>
        var outcome := s.Mutate(handle, m);
        code := outcome.code;
    }

    function GetLastError(): string
      requires impl.Some?
      reads this, Footprint()
    {
      match impl.value
      case LinuxImpl(x) => x.GetLastError()
      case WindowsImpl(w) => w.GetLastError()
      case StubImpl(s) => s.GetLastError()
    }
  }
}

=== FILE: stub.dfy ===
/**
 * The backend of a platform CrossWindow does not support: it never
 * initializes, answers NotSupported to every query and every mutation,
 * enumerates nothing, and keeps only the last-error slot.
 */
module Stub {
  import opened CrossWindow
  import opened Backend

  const PlatformNotSupportedMessage: string := "Platform not supported"

  /** The answer of every stub query: the default value, NotSupported and
      the platform message. */
  function Unsupported<T>(default: T): Result<T> {
    Result(default, NotSupported, PlatformNotSupportedMessage)
  }

  class WindowManagerStub {
    var lastError: string

    constructor ()
      ensures lastError == ""
    {
      lastError := "";
    }

    /** Initialize always fails, recording why. */
    method Initialize() returns (ok: bool)
      modifies this
      ensures !ok && !IsInitialized()
      ensures GetLastError() == PlatformNotSupportedMessage
    {
      SetLastError(PlatformNotSupportedMessage);
      return false;
    }

    /** The stub is never initialized. */
    function IsInitialized(): (initialized: bool)
      ensures !initialized
    {
      false
    }

    /** Shutdown does nothing. */
    method Shutdown()
      ensures lastError == old(lastError)
    {
    }

    method GetAllWindows() returns (result: seq<WindowInfo>)
      ensures |result| == 0
    {
      result := [];
    }

    /** The callback is never invoked. */
    method EnumerateWindows(callback: WindowInfo -> bool) returns (visited: seq<WindowInfo>)
      ensures |visited| == 0
    {
      visited := [];
    }

    method FindWindowsByTitle(titlePattern: string, caseSensitive: bool) returns (result: seq<WindowInfo>)
      ensures |result| == 0
    {
      result := [];
    }

    method FindWindowsByProcess(processName: string) returns (result: seq<WindowInfo>)
      ensures |result| == 0
    {
      result := [];
    }

    method GetWindowInfo(handle: Handle) returns (result: Result<WindowInfo>)
      ensures result.error == NotSupported && result.errorMessage == PlatformNotSupportedMessage
      ensures result.value == DefaultWindowInfo()
    {
      result := Unsupported(DefaultWindowInfo());
    }

    method GetWindowTitle(handle: Handle) returns (result: Result<string>)
      ensures result.error == NotSupported && result.errorMessage == PlatformNotSupportedMessage
      ensures result.value == ""
    {
      result := Unsupported("");
    }

    method GetWindowRect(handle: Handle) returns (result: Result<Rect>)
      ensures result.error == NotSupported && result.errorMessage == PlatformNotSupportedMessage
      ensures result.value == DefaultRect()
    {
      result := Unsupported(DefaultRect());
    }

    method GetWindowState(handle: Handle) returns (result: Result<WindowState>)
      ensures result.error == NotSupported && result.errorMessage == PlatformNotSupportedMessage
      ensures result.value == Normal
    {
      result := Unsupported(Normal);
    }

    method GetWindowProcessId(handle: Handle) returns (result: Result<uint32>)
      ensures result.error == NotSupported && result.errorMessage == PlatformNotSupportedMessage
      ensures result.value == 0
    {
      result := Unsupported(0 as uint32);
    }

    method IsWindowVisible(handle: Handle) returns (visible: bool)
      ensures !visible
    {
      visible := false;
    }

    method IsValidWindow(handle: Handle) returns (valid: bool)
      ensures !valid
    {
      valid := false;
    }

    method GetFocusedWindow() returns (focused: Handle)
      ensures focused == NullHandle
    {
      focused := NullHandle;
    }

    method GetFocusedWindowInfo() returns (result: Result<WindowInfo>)
      ensures result.error == NotSupported && result.errorMessage == PlatformNotSupportedMessage
      ensures result.value == DefaultWindowInfo()
    {
      result := Unsupported(DefaultWindowInfo());
    }

    /** The fourteen manipulation methods: NotSupported whatever the handle
        and the arguments, and no native request. */
    method Mutate(handle: Handle, m: Mutation) returns (outcome: Outcome<()>)
      ensures outcome.code == NotSupported && |outcome.requests| == 0
    {
      outcome := Outcome(NotSupported, []);
    }

    function GetLastError(): string
      reads this
    {
      lastError
    }

    method SetLastError(error: string)
      modifies this
      ensures GetLastError() == error
    {
      lastError := error;
    }
  }

  /** The stub reports neither of the guard codes: although it is never
      initialized, its answers are NotSupported, never NotInitialized, and
      none of them is ok(). */
  lemma StubIsNotGuarded<T>(default: T, valid: bool)
    ensures !Unsupported(default).Ok()
    ensures !FollowsGuard(false, valid, Unsupported(default).error)
    ensures Unsupported(default).error != NotInitialized && Unsupported(default).error != InvalidHandle
  {
  }
}

=== FILE: text.dfy ===
/**
 * The string helpers the backends share: ASCII lower-casing (the model of
 * `::tolower` in the "C" locale), substring search (`std::string::find(p) !=
 * npos`) and ToLowerCompare, the case-insensitive substring test that the X11
 * and Win32 backends each define identically.
 */
module Text {

  /** `::tolower` on one byte, in the "C" locale: only 'A'..'Z' change. */
  function ToLowerChar(c: char): char {
    if 'A' <= c <= 'Z' then (c as int + 32) as char else c
  }

  /** std::transform(s, ::tolower). */
  function Lower(s: string): (r: string)
    ensures |r| == |s|
  {
    seq(|s|, i requires 0 <= i < |s| => ToLowerChar(s[i]))
  }

  /** `p` occurs in `s` at offset `i`. */
  predicate OccursAt(p: string, s: string, i: int) {
    0 <= i <= |s| - |p| && s[i..i + |p|] == p
  }

  /** `p` occurs in `s` at some offset. */
  ghost predicate Occurs(p: string, s: string) {
    exists i :: OccursAt(p, s, i)
  }

  /** An occurrence in `s` is either at offset 0 or an occurrence in s[1..]. */
  lemma OccursStep(p: string, s: string)
    requires |s| > 0
    ensures Occurs(p, s) <==> (|p| <= |s| && s[..|p|] == p) || Occurs(p, s[1..])
  {
    if Occurs(p, s) {
      var i :| OccursAt(p, s, i);
      if i > 0 {
        assert s[1..][i - 1..i - 1 + |p|] == s[i..i + |p|];
        assert OccursAt(p, s[1..], i - 1);
      }
    }
    if Occurs(p, s[1..]) {
      var i :| OccursAt(p, s[1..], i);
      assert s[i + 1..i + 1 + |p|] == s[1..][i..i + |p|];
      assert OccursAt(p, s, i + 1);
    }
    if |p| <= |s| && s[..|p|] == p {
      assert OccursAt(p, s, 0);
    }
  }

  /** `s.find(p) != std::string::npos`. */
  function Contains(s: string, p: string): (found: bool)
    ensures found <==> Occurs(p, s)
    decreases |s|
  {
    if |p| > |s| then false
    else if s[..|p|] == p then assert OccursAt(p, s, 0); true
    else OccursStep(p, s); Contains(s[1..], p)
  }

  /** ToLowerCompare(str, pattern): lower(pattern) is a substring of lower(str). */
  function ToLowerCompare(str: string, pattern: string): (r: bool)
    ensures r <==> Occurs(Lower(pattern), Lower(str))
  {
    Contains(Lower(str), Lower(pattern))
  }

  /** Lowering a slice is slicing the lowered string. */
  lemma LowerSlice(s: string, i: nat, j: nat)
    requires i <= j <= |s|
    ensures Lower(s[i..j]) == Lower(s)[i..j]
  {
  }

  /** The empty pattern matches every string, with or without case folding. */
  lemma EmptyPatternMatchesAll(s: string)
    ensures Contains(s, "")
    ensures ToLowerCompare(s, "")
  {
    assert OccursAt("", s, 0);
    assert OccursAt(Lower(""), Lower(s), 0);
  }

  /** A case-sensitive match is also a case-insensitive match. */
  lemma CaseSensitiveMatchIsInsensitiveMatch(s: string, p: string)
    ensures Contains(s, p) ==> ToLowerCompare(s, p)
  {
    if Contains(s, p) {
      var i :| OccursAt(p, s, i);
      LowerSlice(s, i, i + |p|);
      assert OccursAt(Lower(p), Lower(s), i);
    }
  }

  /** Lowering is idempotent. */
  lemma LowerIdempotent(s: string)
    ensures Lower(Lower(s)) == Lower(s)
  {
  }

  /** ToLowerCompare ignores the case of both of its arguments. */
  lemma ToLowerCompareIgnoresCase(s: string, p: string)
    ensures ToLowerCompare(Lower(s), Lower(p)) == ToLowerCompare(s, p)
  {
    LowerIdempotent(s);
    LowerIdempotent(p);
  }
}

=== FILE: win32.dfy ===
/**
 * The Win32 backend (WindowManagerWindows). The desktop is a `Desktop`
 * value: IsWindow, IsWindowVisible, GetWindow(GW_OWNER), GetWindowTextW,
 * GetClassNameW, GetWindowThreadProcessId, QueryFullProcessImageNameW,
 * GetWindowRect, IsIconic, IsZoomed, the WS_EX_TOPMOST style bit and
 * GetForegroundWindow are lookups in it, and EnumWindows walks its
 * top-level windows in z-order. Calls that change the desktop are recorded
 * as `Request` values in the order they are made.
 */
module Win32 {
  import opened CrossWindow
  import opened Backend
  import Text

  const RectFailedMessage: string := "Failed to get window rect"
  const NoFocusedWindowMessage: string := "No focused window found"

  /** A RECT: edges, not sizes. */
  datatype NativeRect = NativeRect(left: int, top: int, right: int, bottom: int)

  /** The desktop as the backend sees it. */
  datatype Desktop = Desktop(
    windows: set<Handle>,               // IsWindow
    zOrder: seq<Handle>,                // the top-level windows EnumWindows visits, in order
    visible: set<Handle>,               // WS_VISIBLE (IsWindowVisible on a window)
    owned: set<Handle>,                 // GetWindow(GW_OWNER) != nullptr
    text: map<Handle, string>,          // window text, converted to UTF-8
    classNames: map<Handle, string>,    // GetClassNameW, converted to UTF-8
    pids: map<Handle, uint32>,          // GetWindowThreadProcessId
    imageNames: map<uint32, string>,    // file-name part of the image path, for processes that can be queried
    rects: map<Handle, NativeRect>,     // GetWindowRect succeeds
    iconic: set<Handle>,                // IsIconic
    zoomed: set<Handle>,                // IsZoomed
    topmost: set<Handle>,               // WS_EX_TOPMOST
    foreground: Handle,                 // GetForegroundWindow; 0 when none
    terminable: set<uint32>,            // OpenProcess(PROCESS_TERMINATE) succeeds
    unconvertible: set<string>)         // titles MultiByteToWideChar reports no size for

  /** The ShowWindow commands the backend uses. */
  datatype ShowCommand = SwMinimize | SwMaximize | SwRestore | SwShow | SwHide

  /** A call that changes the desktop. */
  datatype Request =
    | PostClose(window: Handle)                        // PostMessage WM_CLOSE
    | TerminateOwner(window: Handle, pid: uint32)      // TerminateProcess(OpenProcess(pid), 1)
    | ShowCmd(window: Handle, command: ShowCommand)    // ::ShowWindow
    | SetForeground(window: Handle)                    // SetForegroundWindow
    | SetFocus(window: Handle)                         // SetFocus
    | SetTopmost(window: Handle, topmost: bool)        // SetWindowPos HWND_TOPMOST / HWND_NOTOPMOST
    | MoveTo(window: Handle, rect: Rect)               // ::MoveWindow(x, y, width, height, TRUE)
    | SetPosition(window: Handle, x: int, y: int)      // SetWindowPos SWP_NOSIZE | SWP_NOZORDER
    | SetSize(window: Handle, width: int, height: int) // SetWindowPos SWP_NOMOVE | SWP_NOZORDER
    | SetText(window: Handle, title: string)           // SetWindowTextW
    | SetLayered(window: Handle)                       // add WS_EX_LAYERED to the extended style
    | SetAlpha(window: Handle, alpha: int)             // SetLayeredWindowAttributes LWA_ALPHA

  // ------------------------------------------------- what a window reports

  /** GetWindowTitleInternal: "" for a window without text. */
  function TitleOf(d: Desktop, w: Handle): string {
    if w in d.text then d.text[w] else ""
  }

  /** GetWindowClassInternal. */
  function ClassOf(d: Desktop, w: Handle): string {
    if w in d.classNames then d.classNames[w] else ""
  }

  /** GetWindowThreadProcessId's pid, 0 when it reports none. */
  function PidOf(d: Desktop, w: Handle): uint32 {
    if w in d.pids then d.pids[w] else 0
  }

  /** GetProcessNameFromPid: "" when the process cannot be opened or queried. */
  function ProcessNameOf(d: Desktop, pid: uint32): string {
    if pid in d.imageNames then d.imageNames[pid] else ""
  }

  /** ::IsWindowVisible: false for anything that is not a window. */
  predicate NativeVisible(d: Desktop, w: Handle) {
    w in d.windows && w in d.visible
  }

  /** A RECT as a Rect: width and height are the edge differences. */
  function ToRect(r: NativeRect): Rect {
    Rect(r.left, r.top, r.right - r.left, r.bottom - r.top)
  }

  /** The rectangle GetWindowInfo reports: default when GetWindowRect fails. */
  function RectOf(d: Desktop, w: Handle): Rect {
    if w in d.rects then ToRect(d.rects[w]) else DefaultRect()
  }

  /** The state bits GetWindowInfo and GetWindowState derive. Fullscreen is
      never reported on Win32. */
  function StateBits(d: Desktop, w: Handle): WindowState {
    StateOf(w in d.iconic, w in d.zoomed, false, !NativeVisible(d, w), d.foreground == w, w in d.topmost)
  }

  /** The snapshot GetWindowInfo takes of a valid window. */
  function InfoOf(d: Desktop, w: Handle): WindowInfo {
    WindowInfo(w, TitleOf(d, w), ClassOf(d, w), RectOf(d, w), StateBits(d, w),
               PidOf(d, w), ProcessNameOf(d, PidOf(d, w)), NativeVisible(d, w))
  }

  // ---------------------------------------------------- query specifications

  function InfoQuery(initialized: bool, d: Desktop, h: Handle): Result<WindowInfo> {
    Guarded(initialized, h in d.windows, DefaultWindowInfo(), Result(InfoOf(d, h), Success, ""))
  }

  function TitleQuery(initialized: bool, d: Desktop, h: Handle): Result<string> {
    Guarded(initialized, h in d.windows, "", Result(TitleOf(d, h), Success, ""))
  }

  function RectQuery(initialized: bool, d: Desktop, h: Handle): Result<Rect> {
    Guarded(initialized, h in d.windows, DefaultRect(),
      if h in d.rects then Result(ToRect(d.rects[h]), Success, "")
      else Result(DefaultRect(), OperationFailed, RectFailedMessage))
  }

  function StateQuery(initialized: bool, d: Desktop, h: Handle): Result<WindowState> {
    Guarded(initialized, h in d.windows, Normal, Result(StateBits(d, h), Success, ""))
  }

  function PidQuery(initialized: bool, d: Desktop, h: Handle): Result<uint32> {
    Guarded(initialized, h in d.windows, 0, Result(PidOf(d, h), Success, ""))
  }

  /** GetFocusedWindow: nullptr on an uninitialized backend. */
  function FocusedHandle(initialized: bool, d: Desktop): Handle {
    if initialized then d.foreground else NullHandle
  }

  function FocusedInfoQuery(initialized: bool, d: Desktop): Result<WindowInfo> {
    var focused := FocusedHandle(initialized, d);
    if focused == NullHandle then Result(DefaultWindowInfo(), WindowNotFound, NoFocusedWindowMessage)
    else InfoQuery(initialized, d, focused)
  }

  /** The windows EnumWindowsProc reports: visible, unowned and titled. */
  predicate Listed(d: Desktop, w: Handle) {
    NativeVisible(d, w) && w !in d.owned && TitleOf(d, w) != ""
  }

  /** What EnumWindowsProc reports for one top-level window on an initialized
      backend. */
  function LookupInfo(d: Desktop, h: Handle): Option<WindowInfo> {
    if Listed(d, h) then Some(InfoOf(d, h)) else None
  }

  function Lookup(d: Desktop): Handle -> Option<WindowInfo> {
    (h: Handle) => LookupInfo(d, h)
  }

  /** GetAllWindows: the listed top-level windows, in z-order. */
  function AllWindows(initialized: bool, d: Desktop): seq<WindowInfo> {
    if initialized then Collect(d.zOrder, Lookup(d)) else []
  }

  /** The alpha byte for an opacity already clamped to [0, 1]:
      static_cast<BYTE>(opacity * 255), on exact reals. */
  function Alpha(opacity: real): (alpha: int)
    requires 0.0 <= opacity <= 1.0
    ensures 0 <= alpha <= 255
    ensures opacity == 0.0 ==> alpha == 0
    ensures opacity == 1.0 ==> alpha == 255
  {
    (opacity * 255.0).Floor
  }

  /** What a mutation does once both guards pass. */
  function Effect(d: Desktop, w: Handle, m: Mutation): Outcome<Request> {
    match m
    case Close => Outcome(Success, [PostClose(w)])
    case ForceClose =>
      if PidOf(d, w) in d.terminable then Outcome(Success, [TerminateOwner(w, PidOf(d, w))])
      else Outcome(AccessDenied, [])
    case Minimize => Outcome(Success, [ShowCmd(w, SwMinimize)])
    case Maximize => Outcome(Success, [ShowCmd(w, SwMaximize)])
    case Restore => Outcome(Success, [ShowCmd(w, SwRestore)])
    case Show => Outcome(Success, [ShowCmd(w, SwShow)])
    case Hide => Outcome(Success, [ShowCmd(w, SwHide)])
    case Focus =>
      Outcome(Success, (if w in d.iconic then [ShowCmd(w, SwRestore)] else []) + [SetForeground(w), SetFocus(w)])
    case SetAlwaysOnTop(topmost) => Outcome(Success, [SetTopmost(w, topmost)])
    case SetRect(r) => Outcome(Success, [MoveTo(w, r)])
    case Move(x, y) => Outcome(Success, [SetPosition(w, x, y)])
    case Resize(width, height) => Outcome(Success, [SetSize(w, width, height)])
    case SetTitle(title) =>
      if title in d.unconvertible then Outcome(OperationFailed, [])
      else Outcome(Success, [SetText(w, title)])
    case SetOpacity(opacity) => Outcome(Success, [SetLayered(w), SetAlpha(w, Alpha(ClampOpacity(opacity)))])
  }

  function MutationOutcome(initialized: bool, d: Desktop, h: Handle, m: Mutation): Outcome<Request> {
    GuardedOutcome(initialized, h in d.windows, Effect(d, h, m))
  }

  /** What an EnumWindows pass hands to its data block: every reported
      window, or, with a callback, those up to the first false answer. */
  function Seen(reported: seq<WindowInfo>, callback: Option<WindowInfo -> bool>): seq<WindowInfo> {
    if callback.Some? then VisitUntilStop(reported, callback.value) else reported
  }

  // ------------------------------------------------------ EnumWindowsData

  /** The data block EnumWindowsProc receives through its LPARAM. The
      `windows` vector is modelled by its contents together with whether a
      vector was supplied at all; `invoked` records the windows the callback
      was invoked on, which is what a callback can observe. */
  class EnumWindowsData {
    var windows: seq<WindowInfo>
    const collecting: bool
    const callback: Option<WindowInfo -> bool>
    var continueEnum: bool
    var invoked: seq<WindowInfo>

    constructor (collecting: bool, callback: Option<WindowInfo -> bool>)
      ensures this.collecting == collecting && this.callback == callback
      ensures windows == [] && invoked == [] && continueEnum
    {
      this.collecting := collecting;
      this.callback := callback;
      windows := [];
      invoked := [];
      continueEnum := true;
    }
  }

  // --------------------------------------------------------------- backend

  class WindowManagerWindows {
    var initialized: bool
    var lastError: string

    constructor ()
      ensures !initialized && lastError == ""
    {
      initialized := false;
      lastError := "";
    }

    /** Initialize always succeeds. */
    method Initialize() returns (ok: bool)
      modifies this`initialized
      ensures ok && initialized
    {
      initialized := true;
      return true;
    }

    function IsInitialized(): bool
      reads this
    {
      initialized
    }

    method Shutdown()
      modifies this`initialized
      ensures !initialized
    {
      initialized := false;
    }

    function GetLastError(): string
      reads this
    {
      lastError
    }

    method SetLastError(error: string)
      modifies this`lastError
      ensures lastError == error
    {
      lastError := error;
    }

    method GetWindowInfo(desktop: Desktop, handle: Handle) returns (result: Result<WindowInfo>)
      ensures result == InfoQuery(initialized, desktop, handle)
    {
      if !initialized {
        return Result(DefaultWindowInfo(), NotInitialized, NotInitializedMessage);
      }
      if handle !in desktop.windows {
        return Result(DefaultWindowInfo(), InvalidHandle, InvalidHandleMessage);
      }
      var info := DefaultWindowInfo();
      info := info.(handle := handle, title := TitleOf(desktop, handle), className := ClassOf(desktop, handle));
      var pid := PidOf(desktop, handle);
      info := info.(processId := pid, processName := ProcessNameOf(desktop, pid));
      if handle in desktop.rects {
        info := info.(rect := ToRect(desktop.rects[handle]));
      }
      var visible := NativeVisible(desktop, handle);
      info := info.(isVisible := visible);
      var state := Normal;
      if handle in desktop.iconic {
        state := state | Minimized;
      }
      if handle in desktop.zoomed {
        state := state | Maximized;
      }
      if !visible {
        state := state | Hidden;
      }
      if handle in desktop.topmost {
        state := state | AlwaysOnTop;
      }
      if desktop.foreground == handle {
        state := state | Focused;
      }
      assert state == StateBits(desktop, handle);
      info := info.(state := state);
      result := Result(info, Success, "");
    }

    method GetWindowTitle(desktop: Desktop, handle: Handle) returns (result: Result<string>)
      ensures result == TitleQuery(initialized, desktop, handle)
    {
      if !initialized {
        return Result("", NotInitialized, NotInitializedMessage);
      }
      if handle !in desktop.windows {
        return Result("", InvalidHandle, InvalidHandleMessage);
      }
      result := Result(TitleOf(desktop, handle), Success, "");
    }

    method GetWindowRect(desktop: Desktop, handle: Handle) returns (result: Result<Rect>)
      ensures result == RectQuery(initialized, desktop, handle)
    {
      if !initialized {
        return Result(DefaultRect(), NotInitialized, NotInitializedMessage);
      }
      if handle !in desktop.windows {
        return Result(DefaultRect(), InvalidHandle, InvalidHandleMessage);
      }
      if handle in desktop.rects {
        var r := desktop.rects[handle];
        result := Result(Rect(r.left, r.top, r.right - r.left, r.bottom - r.top), Success, "");
      } else {
        result := Result(DefaultRect(), OperationFailed, RectFailedMessage);
      }
    }

    method GetWindowState(desktop: Desktop, handle: Handle) returns (result: Result<WindowState>)
      ensures result == StateQuery(initialized, desktop, handle)
    {
      if !initialized {
        return Result(Normal, NotInitialized, NotInitializedMessage);
      }
      if handle !in desktop.windows {
        return Result(Normal, InvalidHandle, InvalidHandleMessage);
      }
      var state := Normal;
      if handle in desktop.iconic {
        state := state | Minimized;
      }
      if handle in desktop.zoomed {
        state := state | Maximized;
      }
      if !NativeVisible(desktop, handle) {
        state := state | Hidden;
      }
      if handle in desktop.topmost {
        state := state | AlwaysOnTop;
      }
      if desktop.foreground == handle {
        state := state | Focused;
      }
      assert state == StateBits(desktop, handle);
      result := Result(state, Success, "");
    }

    method GetWindowProcessId(desktop: Desktop, handle: Handle) returns (result: Result<uint32>)
      ensures result == PidQuery(initialized, desktop, handle)
    {
      if !initialized {
        return Result(0, NotInitialized, NotInitializedMessage);
      }
      if handle !in desktop.windows {
        return Result(0, InvalidHandle, InvalidHandleMessage);
      }
      result := Result(PidOf(desktop, handle), Success, "");
    }

    /** IsWindowVisible: on an initialized backend, the native answer, with
        no validity check of its own. */
    method IsWindowVisible(desktop: Desktop, handle: Handle) returns (visible: bool)
      ensures visible <==> initialized && NativeVisible(desktop, handle)
    {
      if !initialized {
        return false;
      }
      visible := NativeVisible(desktop, handle);
    }

    method IsValidWindow(desktop: Desktop, handle: Handle) returns (valid: bool)
      ensures valid <==> initialized && handle in desktop.windows
    {
      if !initialized {
        return false;
      }
      valid := handle in desktop.windows;
    }

    method GetFocusedWindow(desktop: Desktop) returns (focused: Handle)
      ensures focused == FocusedHandle(initialized, desktop)
    {
      if !initialized {
        return NullHandle;
      }
      focused := desktop.foreground;
    }

    method GetFocusedWindowInfo(desktop: Desktop) returns (result: Result<WindowInfo>)
      ensures result == FocusedInfoQuery(initialized, desktop)
    {
      var focused := GetFocusedWindow(desktop);
      if focused == NullHandle {
        return Result(DefaultWindowInfo(), WindowNotFound, NoFocusedWindowMessage);
      }
      result := GetWindowInfo(desktop, focused);
    }

    /** EnumWindowsProc: skips invisible, owned and untitled windows; hands
        the info of any other window to the vector and the callback, and
        asks EnumWindows to stop when the callback answers false. Reached
        only from GetAllWindows and EnumerateWindows after their
        initialization check. */
    method EnumWindowsProc(desktop: Desktop, hwnd: Handle, data: EnumWindowsData) returns (cont: bool)
      requires initialized
      modifies data
      ensures data.windows == old(data.windows) + (if data.collecting then Reported(LookupInfo(desktop, hwnd)) else [])
      ensures data.invoked == old(data.invoked) + (if data.callback.Some? then Reported(LookupInfo(desktop, hwnd)) else [])
      ensures cont <==> !(LookupInfo(desktop, hwnd).Some? && data.callback.Some?
                          && !data.callback.value(LookupInfo(desktop, hwnd).value))
      ensures data.continueEnum == (old(data.continueEnum) && cont)
    {
      if !NativeVisible(desktop, hwnd) {
        return true;
      }
      if hwnd in desktop.owned {
        return true;
      }
      if TitleOf(desktop, hwnd) == "" {
        return true;
      }
      var infoResult := GetWindowInfo(desktop, hwnd);
      if infoResult.Ok() {
        if data.collecting {
          data.windows := data.windows + [infoResult.value];
        }
        if data.callback.Some? {
          data.invoked := data.invoked + [infoResult.value];
          if !data.callback.value(infoResult.value) {
            data.continueEnum := false;
            return false;
          }
        }
      }
      return true;
    }

    /** ::EnumWindows: calls EnumWindowsProc on each top-level window in
        z-order until it answers false. */
    method EnumWindows(desktop: Desktop, data: EnumWindowsData)
      requires initialized
      modifies data
      ensures data.windows == old(data.windows)
                + (if data.collecting then Seen(Collect(desktop.zOrder, Lookup(desktop)), data.callback) else [])
      ensures data.invoked == old(data.invoked)
                + (if data.callback.Some? then Seen(Collect(desktop.zOrder, Lookup(desktop)), data.callback) else [])
      ensures data.continueEnum
              == (old(data.continueEnum)
                  && (data.callback.None? || Accepts(data.callback.value, Collect(desktop.zOrder, Lookup(desktop)))))
    {
      var hs := desktop.zOrder;
      ghost var lookup := Lookup(desktop);
      ghost var windows0, invoked0 := data.windows, data.invoked;
      ghost var seen: seq<WindowInfo> := [];
      var i := 0;
      while i < |hs|
        invariant 0 <= i <= |hs|
        invariant seen == Collect(hs[..i], lookup)
        invariant data.windows == windows0 + (if data.collecting then seen else [])
        invariant data.invoked == invoked0 + (if data.callback.Some? then seen else [])
        invariant data.callback.Some? ==> Accepts(data.callback.value, seen)
        invariant data.continueEnum == old(data.continueEnum)
      {
        ghost var found := lookup(hs[i]);
        assert LookupInfo(desktop, hs[i]) == found;
        var cont := EnumWindowsProc(desktop, hs[i], data);
        CollectStep(hs, i, lookup);
        Extend(windows0, seen, Reported(found), data.collecting);
        Extend(invoked0, seen, Reported(found), data.callback.Some?);
        if !cont {
          CollectStopsAt(hs, i, lookup, data.callback.value);
          return;
        }
        if data.callback.Some? {
          AcceptsStep(data.callback.value, seen, Reported(found));
        }
        seen := seen + Reported(found);
        i := i + 1;
      }
      TakeAll(hs);
      if data.callback.Some? {
        EnumerationRunsThrough(seen, data.callback.value);
      }
    }

    /** GetAllWindows: every listed top-level window, in z-order; an
        uninitialized backend records an error and reports nothing. */
    method GetAllWindows(desktop: Desktop) returns (result: seq<WindowInfo>)
      modifies this`lastError
      ensures result == AllWindows(initialized, desktop)
      ensures !initialized ==> lastError == NotInitializedMessage
      ensures initialized ==> lastError == old(lastError)
    {
      if !initialized {
        SetLastError(NotInitializedMessage);
        return [];
      }
      var data := new EnumWindowsData(true, None);
      EnumWindows(desktop, data);
      result := data.windows;
    }

    /** EnumerateWindows: hands each listed window to the callback, in
        z-order, and stops right after the first false; returns the windows
        the callback was invoked on. */
    method EnumerateWindows(desktop: Desktop, callback: WindowInfo -> bool) returns (visited: seq<WindowInfo>)
      ensures visited == VisitUntilStop(AllWindows(initialized, desktop), callback)
    {
      if !initialized {
        return [];
      }
      var data := new EnumWindowsData(false, Some(callback));
      EnumWindows(desktop, data);
      visited := data.invoked;
    }

    /** FindWindowsByTitle: GetAllWindows, filtered by the title predicate. */
    method FindWindowsByTitle(desktop: Desktop, titlePattern: string, caseSensitive: bool)
      returns (result: seq<WindowInfo>)
      modifies this`lastError
      ensures result == Filter(AllWindows(initialized, desktop), ByTitle(titlePattern, caseSensitive))
      ensures lastError == old(lastError)
    {
      result := [];
      if !initialized {
        return;
      }
      var allWindows := GetAllWindows(desktop);
      var keep := ByTitle(titlePattern, caseSensitive);
      var i := 0;
      while i < |allWindows|
        invariant 0 <= i <= |allWindows|
        invariant result == Filter(allWindows[..i], keep)
        invariant lastError == old(lastError)
      {
        var info := allWindows[i];
        var matches := false;
        if caseSensitive {
          matches := Text.Contains(info.title, titlePattern);
        } else {
          matches := Text.ToLowerCompare(info.title, titlePattern);
        }
        FilterStep(allWindows, i, keep);
        if matches {
          result := result + [info];
        }
        i := i + 1;
      }
      TakeAll(allWindows);
    }

    /** FindWindowsByProcess: GetAllWindows, filtered by the process predicate. */
    method FindWindowsByProcess(desktop: Desktop, processName: string) returns (result: seq<WindowInfo>)
      modifies this`lastError
      ensures result == Filter(AllWindows(initialized, desktop), ByProcess(processName))
      ensures lastError == old(lastError)
    {
      result := [];
      if !initialized {
        return;
      }
      var allWindows := GetAllWindows(desktop);
      var keep := ByProcess(processName);
      var i := 0;
      while i < |allWindows|
        invariant 0 <= i <= |allWindows|
        invariant result == Filter(allWindows[..i], keep)
        invariant lastError == old(lastError)
      {
        var info := allWindows[i];
        FilterStep(allWindows, i, keep);
        if Text.ToLowerCompare(info.processName, processName) {
          result := result + [info];
        }
        i := i + 1;
      }
      TakeAll(allWindows);
    }

    /** The fourteen manipulation methods: NotInitialized, then InvalidHandle,
        then the calls of Effect. */
    method Mutate(desktop: Desktop, handle: Handle, m: Mutation) returns (outcome: Outcome<Request>)
      ensures outcome == MutationOutcome(initialized, desktop, handle, m)
    {
      if !initialized {
        return Outcome(NotInitialized, []);
      }
      if handle !in desktop.windows {
        return Outcome(InvalidHandle, []);
      }
      var w := handle;
      match m {
        case Close => outcome := Outcome(Success, [PostClose(w)]);
        case ForceClose =>
          var pid := PidOf(desktop, w);
          if pid in desktop.terminable {
            outcome := Outcome(Success, [TerminateOwner(w, pid)]);
          } else {
            outcome := Outcome(AccessDenied, []);
          }
        case Minimize => outcome := Outcome(Success, [ShowCmd(w, SwMinimize)]);
        case Maximize => outcome := Outcome(Success, [ShowCmd(w, SwMaximize)]);
        case Restore => outcome := Outcome(Success, [ShowCmd(w, SwRestore)]);
        case Show => outcome := Outcome(Success, [ShowCmd(w, SwShow)]);
        case Hide => outcome := Outcome(Success, [ShowCmd(w, SwHide)]);
        case Focus =>
          var requests: seq<Request> := [];
          if w in desktop.iconic {
            requests := requests + [ShowCmd(w, SwRestore)];
          }
          requests := requests + [SetForeground(w)];
          requests := requests + [SetFocus(w)];
          outcome := Outcome(Success, requests);
        case SetAlwaysOnTop(topmost) => outcome := Outcome(Success, [SetTopmost(w, topmost)]);
        case SetRect(r) => outcome := Outcome(Success, [MoveTo(w, r)]);
        case Move(x, y) => outcome := Outcome(Success, [SetPosition(w, x, y)]);
        case Resize(width, height) => outcome := Outcome(Success, [SetSize(w, width, height)]);
        case SetTitle(title) =>
          if title in desktop.unconvertible {
            outcome := Outcome(OperationFailed, []);
          } else {
            outcome := Outcome(Success, [SetText(w, title)]);
          }
        case SetOpacity(opacity) =>
          var clamped := ClampOpacity(opacity);
          var alpha := Alpha(clamped);
          outcome := Outcome(Success, [SetLayered(w), SetAlpha(w, alpha)]);
      }
    }
  }

  // ---------------------------------------------------------------- lemmas

  /** Appending to a vector that is only written when `on`. */
  lemma Extend(base: seq<WindowInfo>, pre: seq<WindowInfo>, here: seq<WindowInfo>, on: bool)
    ensures (base + (if on then pre else [])) + (if on then here else []) == base + (if on then pre + here else [])
  {
    if on {
      AppendAssoc(base, pre, here);
    } else {
      assert base + [] == base;
    }
  }

  /** The state bits of a Win32 window: Minimized iff iconic, Maximized iff
      zoomed, Hidden iff not visible (so Hidden is exactly !isVisible in
      GetWindowInfo), AlwaysOnTop iff WS_EX_TOPMOST, Focused iff foreground,
      and Fullscreen never. */
  lemma StateDerivation(d: Desktop, w: Handle)
    ensures HasFlag(StateBits(d, w), Minimized) <==> w in d.iconic
    ensures HasFlag(StateBits(d, w), Maximized) <==> w in d.zoomed
    ensures HasFlag(StateBits(d, w), Hidden) <==> !InfoOf(d, w).isVisible
    ensures HasFlag(StateBits(d, w), AlwaysOnTop) <==> w in d.topmost
    ensures HasFlag(StateBits(d, w), Focused) <==> d.foreground == w
    ensures !HasFlag(StateBits(d, w), Fullscreen)
    ensures StateBits(d, w) & !FlagMask == 0
  {
  }

  /** Every per-handle query follows the guard order; a successful
      GetWindowInfo describes the window asked about and agrees with
      GetWindowState and GetWindowTitle; GetWindowRect fails only when the
      native rectangle is unavailable. */
  lemma QueriesFollowGuard(initialized: bool, d: Desktop, h: Handle)
    ensures FollowsGuard(initialized, h in d.windows, InfoQuery(initialized, d, h).error)
    ensures FollowsGuard(initialized, h in d.windows, TitleQuery(initialized, d, h).error)
    ensures FollowsGuard(initialized, h in d.windows, RectQuery(initialized, d, h).error)
    ensures FollowsGuard(initialized, h in d.windows, StateQuery(initialized, d, h).error)
    ensures FollowsGuard(initialized, h in d.windows, PidQuery(initialized, d, h).error)
    ensures InfoQuery(initialized, d, h).Ok() <==> initialized && h in d.windows
    ensures InfoQuery(initialized, d, h).Ok() ==>
              InfoQuery(initialized, d, h).value.handle == h
              && InfoQuery(initialized, d, h).value.state == StateQuery(initialized, d, h).value
              && InfoQuery(initialized, d, h).value.title == TitleQuery(initialized, d, h).value
    ensures RectQuery(initialized, d, h).error == OperationFailed <==> initialized && h in d.windows && h !in d.rects
    ensures RectQuery(initialized, d, h).Ok() ==> RectQuery(initialized, d, h).value == InfoQuery(initialized, d, h).value.rect
  {
    GuardedPrecedence(initialized, h in d.windows, DefaultWindowInfo(), Result(InfoOf(d, h), Success, ""));
  }

  /** Win32 mutations: the guard order, then a Success exactly when the
      native preconditions hold (a terminable owner for ForceClose, a
      convertible title for SetWindowTitle); every call addresses the
      window; a failure makes no call. */
  lemma MutationsFollowGuard(initialized: bool, d: Desktop, h: Handle, m: Mutation)
    ensures FollowsGuard(initialized, h in d.windows, MutationOutcome(initialized, d, h, m).code)
    ensures MutationOutcome(initialized, d, h, m).code == Success
            <==> initialized && h in d.windows
                 && (m.ForceClose? ==> PidOf(d, h) in d.terminable)
                 && (m.SetTitle? ==> m.title !in d.unconvertible)
    ensures MutationOutcome(initialized, d, h, m).code == Success <==> |MutationOutcome(initialized, d, h, m).requests| > 0
    ensures forall r :: r in MutationOutcome(initialized, d, h, m).requests ==> r.window == h
  {
  }

  /** ForceCloseWindow reports AccessDenied exactly when the owning process
      cannot be opened for termination, and otherwise terminates that process. */
  lemma ForceCloseAccess(d: Desktop, h: Handle)
    requires h in d.windows
    ensures MutationOutcome(true, d, h, ForceClose).code == AccessDenied <==> PidOf(d, h) !in d.terminable
    ensures PidOf(d, h) in d.terminable ==> MutationOutcome(true, d, h, ForceClose).requests == [TerminateOwner(h, PidOf(d, h))]
  {
  }

  /** FocusWindow restores a window first exactly when it is minimized, and
      always ends with SetForegroundWindow then SetFocus. */
  lemma FocusRestoresIconic(d: Desktop, h: Handle)
    requires h in d.windows
    ensures var rs := MutationOutcome(true, d, h, Focus).requests;
      |rs| >= 2 && rs[|rs| - 2] == SetForeground(h) && rs[|rs| - 1] == SetFocus(h)
      && (ShowCmd(h, SwRestore) in rs <==> h in d.iconic)
  {
  }

  /** IsWindowVisible has no validity guard of its own: on an initialized
      backend it answers for any handle, where IsValidWindow and the queries
      would report an invalid one. */
  lemma VisibleNeedsNoValidity(d: Desktop, h: Handle)
    ensures h !in d.windows ==> !NativeVisible(d, h)
    ensures NativeVisible(d, h) ==> InfoQuery(true, d, h).Ok() && InfoQuery(true, d, h).value.isVisible
  {
  }

  /** GetAllWindows reports exactly the listed top-level windows: every
      reported info is the snapshot of a visible, unowned, titled window in
      the z-order, and each of them is reported. */
  lemma AllWindowsMembers(d: Desktop, info: WindowInfo)
    ensures info in AllWindows(true, d)
            <==> exists k :: 0 <= k < |d.zOrder| && Listed(d, d.zOrder[k]) && info == InfoOf(d, d.zOrder[k])
  {
    CollectMembers(d.zOrder, Lookup(d), info);
  }

  /** Every window GetAllWindows reports is visible, with a non-empty title,
      and so never carries the Hidden flag. */
  lemma {:induction false} AllWindowsAreVisible(d: Desktop, info: WindowInfo)
    requires info in AllWindows(true, d)
    ensures info.isVisible && info.title != "" && !HasFlag(info.state, Hidden)
  {
    AllWindowsMembers(d, info);
    var k :| 0 <= k < |d.zOrder| && Listed(d, d.zOrder[k]) && info == InfoOf(d, d.zOrder[k]);
    StateDerivation(d, d.zOrder[k]);
  }
}

=== FILE: window_list.dfy ===
/**
 * The two formatting helpers of the window-list example: the textual form
 * of a WindowState and the truncation of long titles.
 */
module WindowList {
  import opened CrossWindow

  /** The printed name of each named flag followed by one space, in the
      order of Flags. */
  const FlagWords: seq<string> :=
    ["Minimized ", "Maximized ", "Fullscreen ", "Hidden ", "Focused ", "AlwaysOnTop "]

  /** The words of the flags among the first n that are set in `state`, in
      flag order. */
  function SetWords(state: WindowState, n: nat): seq<string>
    requires n <= |Flags|
  {
    if n == 0 then []
    else SetWords(state, n - 1) + (if HasFlag(state, Flags[n - 1]) then [FlagWords[n - 1]] else [])
  }

  /** The words, one after the other. */
  function Concat(words: seq<string>): string {
    if |words| == 0 then ""
    else Concat(words[..|words| - 1]) + words[|words| - 1]
  }

  /** The words of the set flags among the first n, one after the other. */
  function TextUpTo(state: WindowState, n: nat): string
    requires n <= |Flags|
  {
    if n == 0 then ""
    else TextUpTo(state, n - 1) + (if HasFlag(state, Flags[n - 1]) then FlagWords[n - 1] else "")
  }

  /** The text of a state: the words of its set flags, or "Normal" when
      none is set. */
  function StateText(state: WindowState): string {
    var text := TextUpTo(state, |Flags|);
    if |text| == 0 then "Normal" else text
  }

  /** The text is the listed words, one after the other. */
  lemma {:induction false} TextIsConcatOfWords(state: WindowState, n: nat)
    requires n <= |Flags|
    ensures TextUpTo(state, n) == Concat(SetWords(state, n))
  {
    if n > 0 {
      TextIsConcatOfWords(state, n - 1);
      if HasFlag(state, Flags[n - 1]) {
        ConcatSnoc(SetWords(state, n - 1), FlagWords[n - 1]);
      } else {
        assert SetWords(state, n) == SetWords(state, n - 1);
      }
    }
  }

  /** Adding one word appends it. */
  lemma ConcatSnoc(words: seq<string>, w: string)
    ensures Concat(words + [w]) == Concat(words) + w
  {
    assert (words + [w])[..|words|] == words;
  }

  /** One step of StateToString: appending the n-th word when its flag is
      set extends the text of the first n flags to the first n + 1. */
  lemma AppendStep(state: WindowState, n: nat, flag: WindowState, word: string, before: string, after: string)
    requires n < |Flags| && flag == Flags[n] && word == FlagWords[n]
    requires before == TextUpTo(state, n)
    requires after == if HasFlag(state, flag) then before + word else before
    ensures after == TextUpTo(state, n + 1)
  {
    if !HasFlag(state, flag) {
      assert before + "" == before;
    }
  }

  /** StateToString: appends the name of each set flag in turn, and answers
      "Normal" when it appended nothing. */
  method StateToString(state: WindowState) returns (result: string)
    ensures result == StateText(state)
  {
    result := "";
    var before := result;
    if HasFlag(state, Minimized) {
      result := result + "Minimized ";
    }
    AppendStep(state, 0, Minimized, "Minimized ", before, result);
    before := result;
    if HasFlag(state, Maximized) {
      result := result + "Maximized ";
    }
    AppendStep(state, 1, Maximized, "Maximized ", before, result);
    before := result;
    if HasFlag(state, Fullscreen) {
      result := result + "Fullscreen ";
    }
    AppendStep(state, 2, Fullscreen, "Fullscreen ", before, result);
    before := result;
    if HasFlag(state, Hidden) {
      result := result + "Hidden ";
    }
    AppendStep(state, 3, Hidden, "Hidden ", before, result);
    before := result;
    if HasFlag(state, Focused) {
      result := result + "Focused ";
    }
    AppendStep(state, 4, Focused, "Focused ", before, result);
    before := result;
    if HasFlag(state, AlwaysOnTop) {
      result := result + "AlwaysOnTop ";
    }
    AppendStep(state, 5, AlwaysOnTop, "AlwaysOnTop ", before, result);
    if |result| == 0 {
      result := "Normal";
    }
  }

  /** No two flags share a word: their first two letters already differ. */
  lemma FlagWordsDistinct(j: nat, k: nat)
    requires j < |FlagWords| && k < |FlagWords| && j != k
    ensures FlagWords[j] != FlagWords[k]
  {
    var keys := [('M', 'i'), ('M', 'a'), ('F', 'u'), ('H', 'i'), ('F', 'o'), ('A', 'l')];
    assert forall i :: 0 <= i < |FlagWords| ==> (FlagWords[i][0], FlagWords[i][1]) == keys[i];
  }

  /** A flag's word is listed exactly when the flag is set. */
  lemma {:induction false} SetWordsIffFlag(state: WindowState, n: nat, k: nat)
    requires n <= |Flags| && k < |Flags|
    ensures FlagWords[k] in SetWords(state, n) <==> k < n && HasFlag(state, Flags[k])
  {
    if n > 0 {
      SetWordsIffFlag(state, n - 1, k);
      if n - 1 != k {
        FlagWordsDistinct(n - 1, k);
      }
    }
  }

  /** Every flag word is a name followed by one space. */
  lemma FlagWordsEndInSpace(k: nat)
    requires k < |FlagWords|
    ensures |FlagWords[k]| > 1 && FlagWords[k][|FlagWords[k]| - 1] == ' '
  {
  }

  /** The text of the first n flags is empty exactly when none of them is
      set, and otherwise ends in a space. */
  lemma {:induction false} TextUpToShape(state: WindowState, n: nat)
    requires n <= |Flags|
    ensures |TextUpTo(state, n)| == 0 <==> forall k :: 0 <= k < n ==> !HasFlag(state, Flags[k])
    ensures |TextUpTo(state, n)| > 0 ==> TextUpTo(state, n)[|TextUpTo(state, n)| - 1] == ' '
  {
    if n > 0 {
      TextUpToShape(state, n - 1);
      FlagWordsEndInSpace(n - 1);
    }
  }

  /** For each named flag, its word is listed iff the flag is set. */
  lemma ListedIffSet(state: WindowState)
    ensures forall k :: 0 <= k < |Flags| ==> (FlagWords[k] in SetWords(state, |Flags|) <==> HasFlag(state, Flags[k]))
  {
    forall k | 0 <= k < |Flags|
      ensures FlagWords[k] in SetWords(state, |Flags|) <==> HasFlag(state, Flags[k])
    {
      SetWordsIffFlag(state, |Flags|, k);
    }
  }

  /** The text is "Normal" iff no named flag is set. */
  lemma NormalIffNoFlag(state: WindowState)
    ensures StateText(state) == "Normal" <==> forall k :: 0 <= k < |Flags| ==> !HasFlag(state, Flags[k])
  {
    TextUpToShape(state, |Flags|);
    assert "Normal"[5] != ' ';
  }

  /** The words come in flag order: when the first n flags are all set, the
      listed words are the first n words, in declaration order. */
  lemma {:induction false} AllFlagsListed(state: WindowState, n: nat)
    requires n <= |Flags|
    requires forall k :: 0 <= k < n ==> HasFlag(state, Flags[k])
    ensures SetWords(state, n) == FlagWords[..n]
  {
    if n > 0 {
      AllFlagsListed(state, n - 1);
      assert FlagWords[..n] == FlagWords[..n - 1] + [FlagWords[n - 1]];
    }
  }

  /** A title longer than 50 characters is shown as its first 47 followed
      by "..."; a shorter one is shown whole. */
  method TruncateTitle(title: string) returns (shown: string)
    ensures |shown| <= 50
    ensures |title| <= 50 ==> shown == title
    ensures |title| > 50 ==> |shown| == 50 && shown[..47] == title[..47] && shown[47..] == "..."
  {
    shown := title;
    if |shown| > 50 {
      shown := shown[..47] + "...";
    }
  }
}

=== FILE: x11.dfy ===
/**
 * The X11 backend (WindowManagerLinux). The X server is a `Server` value:
 * every query the backend sends (XOpenDisplay, XGetWindowProperty,
 * XGetWindowAttributes, XFetchName, XGetClassHint, the /proc lookup of a
 * process name) is a lookup in it. Requests that change the desktop are
 * recorded as `Request` values in the order they are sent; their effect on
 * the server is not modelled.
 */
module X11 {
  import opened CrossWindow
  import opened Backend
  import Text

  /** Atoms are compared by name, as XInternAtom interns them. */
  type Atom = string

  const NetWmStateHidden: Atom := "_NET_WM_STATE_HIDDEN"
  const NetWmStateMaximizedVert: Atom := "_NET_WM_STATE_MAXIMIZED_VERT"
  const NetWmStateMaximizedHorz: Atom := "_NET_WM_STATE_MAXIMIZED_HORZ"
  const NetWmStateFullscreen: Atom := "_NET_WM_STATE_FULLSCREEN"
  const NetWmStateAbove: Atom := "_NET_WM_STATE_ABOVE"

  const OpenDisplayFailedMessage: string := "Failed to open X11 display"
  const AttributesFailedMessage: string := "Failed to get window attributes"
  const NoFocusedWindowMessage: string := "No focused window found"

  /** What XGetWindowAttributes and XTranslateCoordinates report for a window:
      its absolute position, its size and whether it is viewable. */
  datatype Attributes = Attributes(x: int, y: int, width: int, height: int, viewable: bool)

  /** The X server as the backend sees it. */
  datatype Server = Server(
    displayAvailable: bool,               // XOpenDisplay(nullptr) succeeds
    clientList: seq<Handle>,              // _NET_CLIENT_LIST of the root; [] when unreadable
    alive: set<Handle>,                   // the validity probe's XGetWindowAttributes succeeds
    attributes: map<Handle, Attributes>,  // the geometry fetch's XGetWindowAttributes succeeds
    netWmName: map<Handle, string>,       // _NET_WM_NAME (UTF8_STRING)
    wmName: map<Handle, string>,          // WM_NAME via XFetchName
    wmClass: map<Handle, string>,         // res_class of WM_CLASS
    pids: map<Handle, uint32>,            // _NET_WM_PID
    processNames: map<uint32, string>,    // /proc/<pid>/comm without its newline
    wmState: map<Handle, seq<Atom>>,      // _NET_WM_STATE; absent when unreadable
    active: Handle)                       // _NET_ACTIVE_WINDOW of the root; 0 when none

  /** A request sent to the X server. */
  datatype Request =
    | NetCloseWindow(window: Handle)                  // _NET_CLOSE_WINDOW client message
    | KillClient(window: Handle)                      // XKillClient
    | Iconify(window: Handle)                         // XIconifyWindow
    | Map(window: Handle)                             // XMapWindow
    | Unmap(window: Handle)                           // XUnmapWindow
    | WmStateChange(window: Handle, add: bool, state1: Atom, state2: Option<Atom>)  // _NET_WM_STATE client message
    | NetActivate(window: Handle)                     // _NET_ACTIVE_WINDOW client message
    | MoveResize(window: Handle, rect: Rect)          // XMoveResizeWindow
    | MoveTo(window: Handle, x: int, y: int)          // XMoveWindow
    | ResizeTo(window: Handle, width: int, height: int)  // XResizeWindow
    | StoreName(window: Handle, title: string)        // XStoreName (WM_NAME)
    | SetNetWmName(window: Handle, title: string)     // _NET_WM_NAME property
    | SetOpacityProperty(window: Handle, value: int)  // _NET_WM_WINDOW_OPACITY (CARDINAL, format 32)

  // ------------------------------------------------- what a window reports

  /** GetWindowTitleInternal: a non-empty _NET_WM_NAME, else WM_NAME, else "". */
  function TitleOf(s: Server, w: Handle): string {
    if w in s.netWmName && |s.netWmName[w]| > 0 then s.netWmName[w]
    else if w in s.wmName then s.wmName[w]
    else ""
  }

  /** GetWindowClassInternal. */
  function ClassOf(s: Server, w: Handle): string {
    if w in s.wmClass then s.wmClass[w] else ""
  }

  /** GetWindowPidInternal: 0 when _NET_WM_PID cannot be read. */
  function PidOf(s: Server, w: Handle): uint32 {
    if w in s.pids then s.pids[w] else 0
  }

  /** GetProcessNameFromPid: "" for pid 0 and for an unreadable /proc entry. */
  function ProcessNameOf(s: Server, pid: uint32): string {
    if pid == 0 then "" else if pid in s.processNames then s.processNames[pid] else ""
  }

  /** The geometry of a window, default when its attributes cannot be read. */
  function RectOf(s: Server, w: Handle): Rect {
    if w in s.attributes then
      var a := s.attributes[w];
      Rect(a.x, a.y, a.width, a.height)
    else DefaultRect()
  }

  /** HasWmState: the atom is in the window's _NET_WM_STATE list. */
  predicate WmStateHas(s: Server, w: Handle, atom: Atom) {
    w in s.wmState && atom in s.wmState[w]
  }

  /** The state bits GetWindowInfo and GetWindowState derive. */
  function StateBits(s: Server, w: Handle): WindowState {
    StateOf(WmStateHas(s, w, NetWmStateHidden),
            WmStateHas(s, w, NetWmStateMaximizedVert) && WmStateHas(s, w, NetWmStateMaximizedHorz),
            WmStateHas(s, w, NetWmStateFullscreen),
            false,
            s.active == w,
            WmStateHas(s, w, NetWmStateAbove))
  }

  /** The snapshot GetWindowInfo takes of a valid window. */
  function InfoOf(s: Server, w: Handle): WindowInfo {
    WindowInfo(w, TitleOf(s, w), ClassOf(s, w), RectOf(s, w), StateBits(s, w),
               PidOf(s, w), ProcessNameOf(s, PidOf(s, w)),
               w in s.attributes && s.attributes[w].viewable)
  }

  // ---------------------------------------------------- query specifications

  function InfoQuery(initialized: bool, s: Server, h: Handle): Result<WindowInfo> {
    Guarded(initialized, h in s.alive, DefaultWindowInfo(), Result(InfoOf(s, h), Success, ""))
  }

  function TitleQuery(initialized: bool, s: Server, h: Handle): Result<string> {
    Guarded(initialized, h in s.alive, "", Result(TitleOf(s, h), Success, ""))
  }

  function RectQuery(initialized: bool, s: Server, h: Handle): Result<Rect> {
    Guarded(initialized, h in s.alive, DefaultRect(),
      if h in s.attributes then Result(RectOf(s, h), Success, "")
      else Result(DefaultRect(), OperationFailed, AttributesFailedMessage))
  }

  function StateQuery(initialized: bool, s: Server, h: Handle): Result<WindowState> {
    Guarded(initialized, h in s.alive, Normal, Result(StateBits(s, h), Success, ""))
  }

  function PidQuery(initialized: bool, s: Server, h: Handle): Result<uint32> {
    Guarded(initialized, h in s.alive, 0, Result(PidOf(s, h), Success, ""))
  }

  /** GetFocusedWindow: 0 on an uninitialized backend. */
  function FocusedHandle(initialized: bool, s: Server): Handle {
    if initialized then s.active else NullHandle
  }

  function FocusedInfoQuery(initialized: bool, s: Server): Result<WindowInfo> {
    var focused := FocusedHandle(initialized, s);
    if focused == NullHandle then Result(DefaultWindowInfo(), WindowNotFound, NoFocusedWindowMessage)
    else InfoQuery(initialized, s, focused)
  }

  /** The enumeration lookup: a client-list window is reported iff
      GetWindowInfo succeeds on it. */
  function LookupInfo(s: Server, h: Handle): Option<WindowInfo> {
    if h in s.alive then Some(InfoOf(s, h)) else None
  }

  function Lookup(s: Server): Handle -> Option<WindowInfo> {
    (h: Handle) => LookupInfo(s, h)
  }

  /** GetAllWindows: the client list through Lookup, or nothing. */
  function AllWindows(initialized: bool, s: Server): seq<WindowInfo> {
    if initialized then Collect(s.clientList, Lookup(s)) else []
  }

  /** The requests a mutation sends once both guards pass; on X11 every one
      of them reports Success. */
  function Effect(w: Handle, m: Mutation): Outcome<Request> {
    Outcome(Success,
      match m
      case Close => [NetCloseWindow(w)]
      case ForceClose => [KillClient(w)]
      case Minimize => [Iconify(w)]
      case Maximize => [Map(w), WmStateChange(w, true, NetWmStateMaximizedVert, Some(NetWmStateMaximizedHorz))]
      case Restore => [Map(w), WmStateChange(w, false, NetWmStateMaximizedVert, Some(NetWmStateMaximizedHorz)),
                       WmStateChange(w, false, NetWmStateFullscreen, None)]
      case Show => [Map(w)]
      case Hide => [Unmap(w)]
      case Focus => [NetActivate(w)]
      case SetAlwaysOnTop(topmost) => [WmStateChange(w, topmost, NetWmStateAbove, None)]
      case SetRect(r) => [MoveResize(w, r)]
      case Move(x, y) => [MoveTo(w, x, y)]
      case Resize(width, height) => [ResizeTo(w, width, height)]
      case SetTitle(title) => [StoreName(w, title), SetNetWmName(w, title)]
      case SetOpacity(opacity) => [SetOpacityProperty(w, OpacityValue(ClampOpacity(opacity)))])
  }

  function MutationOutcome(initialized: bool, s: Server, h: Handle, m: Mutation): Outcome<Request> {
    GuardedOutcome(initialized, h in s.alive, Effect(h, m))
  }

  // ------------------------------------------------------------- opacity

  /** The _NET_WM_WINDOW_OPACITY value SetWindowOpacity computes from an
      opacity already clamped to [0, 1]: the single-precision product
      `opacity * 0xFFFFFFFF`, where the constant rounds to 2^32 and scaling
      by a power of two is exact, converted to a 64-bit unsigned long, of
      which a format-32 property keeps the low 32 bits. */
  function OpacityValueAsWritten(c: real): (v: int)
    requires 0.0 <= c <= 1.0
    ensures 0 <= v < 0x1_0000_0000
  {
    (c * 4294967296.0).Floor % 0x1_0000_0000
  }

  /** As written, full opacity is sent as 0, the value of full
      transparency, and more opacity can mean a smaller value. */
  lemma OpaqueSentAsTransparent()
    ensures OpacityValueAsWritten(1.0) == 0
    ensures OpacityValueAsWritten(0.0) == 0
    ensures OpacityValueAsWritten(0.5) > OpacityValueAsWritten(1.0)
  {
    assert (1.0 * 4294967296.0).Floor == 0x1_0000_0000;
    assert (0.5 * 4294967296.0).Floor == 0x8000_0000;
  }

  /** The intended value: the opacity scaled onto 0 .. 0xFFFFFFFF, fully
      transparent at 0 and fully opaque at 0xFFFFFFFF. */
  function OpacityValue(c: real): (v: int)
    requires 0.0 <= c <= 1.0
    ensures 0 <= v <= 0xFFFF_FFFF
    ensures c == 0.0 ==> v == 0
    ensures c == 1.0 ==> v == 0xFFFF_FFFF
  {
    (c * 4294967295.0).Floor
  }

  /** More opacity never sends a smaller value. */
  lemma OpacityValueMonotone(a: real, b: real)
    requires 0.0 <= a <= b <= 1.0
    ensures OpacityValue(a) <= OpacityValue(b)
  {
    assert a * 4294967295.0 <= b * 4294967295.0;
  }

  /** SetWindowOpacity in this model sends the corrected value: on a live
      window, full opacity sends 0xFFFFFFFF, where the code as written sends 0. */
  lemma SetOpacitySendsCorrectedValue(s: Server, h: Handle)
    requires h in s.alive
    ensures MutationOutcome(true, s, h, SetOpacity(1.0)).requests == [SetOpacityProperty(h, 0xFFFF_FFFF)]
    ensures OpacityValueAsWritten(1.0) != 0xFFFF_FFFF
  {
    OpaqueSentAsTransparent();
  }

  // --------------------------------------------------------------- backend

  class WindowManagerLinux {
    var initialized: bool
    /** m_display != nullptr */
    var displayOpen: bool
    var lastError: string

    /** The display is open exactly while the backend is initialized. */
    ghost predicate Valid()
      reads this
    {
      initialized == displayOpen
    }

    constructor ()
      ensures Valid() && !initialized && !displayOpen && lastError == ""
    {
      initialized := false;
      displayOpen := false;
      lastError := "";
    }

    /** Idempotent: an initialized backend answers true and reopens nothing.
        Otherwise the display either opens, or the backend records the
        failure and stays uninitialized. */
    method Initialize(server: Server) returns (ok: bool)
      requires Valid()
      modifies this
      ensures Valid()
      ensures ok == initialized
      ensures old(initialized) ==> ok && lastError == old(lastError)
      ensures !old(initialized) && server.displayAvailable ==> ok && lastError == old(lastError)
      ensures !old(initialized) && !server.displayAvailable ==> !ok && lastError == OpenDisplayFailedMessage
    {
      if initialized {
        return true;
      }
      displayOpen := server.displayAvailable;
      if !displayOpen {
        SetLastError(OpenDisplayFailedMessage);
        return false;
      }
      initialized := true;
      return true;
    }

    function IsInitialized(): bool
      reads this
    {
      initialized
    }

    /** Always leaves the backend uninitialized with the display released,
        whatever the state before, so a second call changes nothing. */
    method Shutdown()
      modifies this
      ensures Valid() && !initialized && !displayOpen && lastError == old(lastError)
    {
      if displayOpen {
        displayOpen := false;
      }
      initialized := false;
    }

    function GetLastError(): string
      reads this
    {
      lastError
    }

    method SetLastError(error: string)
      modifies this`lastError
      ensures lastError == error
    {
      lastError := error;
    }

    /** HasWmState: scans the _NET_WM_STATE list and stops at the first match. */
    method HasWmState(server: Server, window: Handle, state: Atom) returns (hasState: bool)
      ensures hasState <==> window in server.wmState && state in server.wmState[window]
    {
      hasState := false;
      if window in server.wmState {
        var atoms := server.wmState[window];
        var i := 0;
        while i < |atoms|
          invariant 0 <= i <= |atoms|
          invariant !hasState && state !in atoms[..i]
        {
          if atoms[i] == state {
            hasState := true;
            break;
          }
          assert atoms[..i + 1] == atoms[..i] + [atoms[i]];
          i := i + 1;
        }
        assert !hasState ==> atoms[..|atoms|] == atoms;
      }
    }

    /** IsValidWindow: false when uninitialized, else the probe's answer. */
    method IsValidWindow(server: Server, handle: Handle) returns (valid: bool)
      ensures valid <==> initialized && handle in server.alive
    {
      if !initialized {
        return false;
      }
      valid := handle in server.alive;
    }

    /** GetFocusedWindow: the root's _NET_ACTIVE_WINDOW, 0 when uninitialized. */
    method GetFocusedWindow(server: Server) returns (focused: Handle)
      ensures focused == FocusedHandle(initialized, server)
      ensures !initialized ==> focused == NullHandle
    {
      if !initialized {
        return NullHandle;
      }
      focused := server.active;
    }

    /** The state derivation GetWindowInfo and GetWindowState share: one bit
        per EWMH atom, Maximized only with both maximized atoms, Focused for
        the active window, Hidden never. */
    method DeriveState(server: Server, window: Handle) returns (state: WindowState)
      requires initialized
      ensures state == StateBits(server, window)
    {
      state := Normal;
      var hidden := HasWmState(server, window, NetWmStateHidden);
      if hidden {
        state := state | Minimized;
      }
      var vert := HasWmState(server, window, NetWmStateMaximizedVert);
      var horz := false;
      if vert {
        horz := HasWmState(server, window, NetWmStateMaximizedHorz);
      }
      if vert && horz {
        state := state | Maximized;
      }
      var fullscreen := HasWmState(server, window, NetWmStateFullscreen);
      if fullscreen {
        state := state | Fullscreen;
      }
      var above := HasWmState(server, window, NetWmStateAbove);
      if above {
        state := state | AlwaysOnTop;
      }
      var focusedWindow := GetFocusedWindow(server);
      if focusedWindow == window {
        state := state | Focused;
      }
      assert state == StateOf(hidden, vert && horz, fullscreen, false, focusedWindow == window, above);
    }

    method GetWindowInfo(server: Server, handle: Handle) returns (result: Result<WindowInfo>)
      ensures result == InfoQuery(initialized, server, handle)
    {
      if !initialized {
        return Result(DefaultWindowInfo(), NotInitialized, NotInitializedMessage);
      }
      var valid := IsValidWindow(server, handle);
      if !valid {
        return Result(DefaultWindowInfo(), InvalidHandle, InvalidHandleMessage);
      }
      var info := DefaultWindowInfo();
      info := info.(handle := handle, title := TitleOf(server, handle), className := ClassOf(server, handle));
      info := info.(processId := PidOf(server, handle));
      info := info.(processName := ProcessNameOf(server, info.processId));
      if handle in server.attributes {
        var attrs := server.attributes[handle];
        info := info.(rect := Rect(attrs.x, attrs.y, attrs.width, attrs.height), isVisible := attrs.viewable);
      }
      var state := DeriveState(server, handle);
      info := info.(state := state);
      result := Result(info, Success, "");
    }

    method GetWindowTitle(server: Server, handle: Handle) returns (result: Result<string>)
      ensures result == TitleQuery(initialized, server, handle)
    {
      if !initialized {
        return Result("", NotInitialized, NotInitializedMessage);
      }
      var valid := IsValidWindow(server, handle);
      if !valid {
        return Result("", InvalidHandle, InvalidHandleMessage);
      }
      result := Result(TitleOf(server, handle), Success, "");
    }

    method GetWindowRect(server: Server, handle: Handle) returns (result: Result<Rect>)
      ensures result == RectQuery(initialized, server, handle)
    {
      if !initialized {
        return Result(DefaultRect(), NotInitialized, NotInitializedMessage);
      }
      var valid := IsValidWindow(server, handle);
      if !valid {
        return Result(DefaultRect(), InvalidHandle, InvalidHandleMessage);
      }
      if handle in server.attributes {
        var attrs := server.attributes[handle];
        result := Result(Rect(attrs.x, attrs.y, attrs.width, attrs.height), Success, "");
      } else {
        result := Result(DefaultRect(), OperationFailed, AttributesFailedMessage);
      }
    }

    method GetWindowState(server: Server, handle: Handle) returns (result: Result<WindowState>)
      ensures result == StateQuery(initialized, server, handle)
    {
      if !initialized {
        return Result(Normal, NotInitialized, NotInitializedMessage);
      }
      var valid := IsValidWindow(server, handle);
      if !valid {
        return Result(Normal, InvalidHandle, InvalidHandleMessage);
      }
      var state := DeriveState(server, handle);
      result := Result(state, Success, "");
    }

    method GetWindowProcessId(server: Server, handle: Handle) returns (result: Result<uint32>)
      ensures result == PidQuery(initialized, server, handle)
    {
      if !initialized {
        return Result(0, NotInitialized, NotInitializedMessage);
      }
      var valid := IsValidWindow(server, handle);
      if !valid {
        return Result(0, InvalidHandle, InvalidHandleMessage);
      }
      result := Result(PidOf(server, handle), Success, "");
    }

    /** IsWindowVisible: initialized, valid, attributes readable and viewable. */
    method IsWindowVisible(server: Server, handle: Handle) returns (visible: bool)
      ensures visible <==> initialized && handle in server.alive
                           && handle in server.attributes && server.attributes[handle].viewable
    {
      var valid := IsValidWindow(server, handle);
      if !initialized || !valid {
        return false;
      }
      if handle in server.attributes {
        return server.attributes[handle].viewable;
      }
      return false;
    }

    method GetFocusedWindowInfo(server: Server) returns (result: Result<WindowInfo>)
      ensures result == FocusedInfoQuery(initialized, server)
    {
      var focused := GetFocusedWindow(server);
      if focused == NullHandle {
        return Result(DefaultWindowInfo(), WindowNotFound, NoFocusedWindowMessage);
      }
      result := GetWindowInfo(server, focused);
    }

    /** GetAllWindows: every client-list window whose info can be read, in
        client-list order; an uninitialized backend records an error and
        reports nothing. */
    method GetAllWindows(server: Server) returns (result: seq<WindowInfo>)
      modifies this`lastError
      ensures result == AllWindows(initialized, server)
      ensures !initialized ==> lastError == NotInitializedMessage
      ensures initialized ==> lastError == old(lastError)
    {
      result := [];
      if !initialized {
        SetLastError(NotInitializedMessage);
        return;
      }
      var windows := server.clientList;
      var i := 0;
      while i < |windows|
        invariant 0 <= i <= |windows|
        invariant lastError == old(lastError)
        invariant result == Collect(windows[..i], Lookup(server))
      {
        var info := GetWindowInfo(server, windows[i]);
        var added: seq<WindowInfo> := [];
        if info.Ok() {
          added := [info.value];
        }
        assert added == Reported(Lookup(server)(windows[i]));
        CollectStep(windows, i, Lookup(server));
        result := result + added;
        i := i + 1;
      }
      TakeAll(windows);
    }

    /** EnumerateWindows: hands each readable client-list window to the
        callback, in order, and stops right after the first false; returns
        the windows the callback was invoked on. */
    method EnumerateWindows(server: Server, callback: WindowInfo -> bool) returns (visited: seq<WindowInfo>)
      ensures visited == VisitUntilStop(AllWindows(initialized, server), callback)
    {
      visited := [];
      if !initialized {
        return;
      }
      var windows := server.clientList;
      var i := 0;
      while i < |windows|
        invariant 0 <= i <= |windows|
        invariant visited == Collect(windows[..i], Lookup(server))
        invariant Accepts(callback, visited)
      {
        var info := GetWindowInfo(server, windows[i]);
        var added: seq<WindowInfo> := [];
        if info.Ok() {
          added := [info.value];
        }
        assert added == Reported(Lookup(server)(windows[i]));
        if info.Ok() && !callback(info.value) {
          CollectStopsAt(windows, i, Lookup(server), callback);
          CollectStep(windows, i, Lookup(server));
          visited := visited + added;
          return;
        }
        CollectStep(windows, i, Lookup(server));
        visited := visited + added;
        i := i + 1;
      }
      TakeAll(windows);
      EnumerationRunsThrough(visited, callback);
    }

    /** FindWindowsByTitle: reads each client-list title, and takes the info
        of the matching ones. The result is exactly GetAllWindows filtered by
        the title predicate, in order. */
    method FindWindowsByTitle(server: Server, titlePattern: string, caseSensitive: bool)
      returns (result: seq<WindowInfo>)
      ensures result == Filter(AllWindows(initialized, server), ByTitle(titlePattern, caseSensitive))
    {
      result := [];
      if !initialized {
        return;
      }
      var windows := server.clientList;
      var keep := ByTitle(titlePattern, caseSensitive);
      var i := 0;
      while i < |windows|
        invariant 0 <= i <= |windows|
        invariant result == Filter(Collect(windows[..i], Lookup(server)), keep)
      {
        var w := windows[i];
        var title := TitleOf(server, w);
        var matches := false;
        if caseSensitive {
          matches := Text.Contains(title, titlePattern);
        } else {
          matches := Text.ToLowerCompare(title, titlePattern);
        }
        var added: seq<WindowInfo> := [];
        if matches {
          var info := GetWindowInfo(server, w);
          if info.Ok() {
            added := [info.value];
          }
        }
        MatchStep(server, w, keep, matches, added);
        FilterCollectStep(windows, i, Lookup(server), keep);
        result := result + added;
        i := i + 1;
      }
      TakeAll(windows);
    }

    /** FindWindowsByProcess: resolves each client-list window's process
        name, and takes the info of the matching ones. The result is exactly
        GetAllWindows filtered by the process predicate, in order. */
    method FindWindowsByProcess(server: Server, processName: string) returns (result: seq<WindowInfo>)
      ensures result == Filter(AllWindows(initialized, server), ByProcess(processName))
    {
      result := [];
      if !initialized {
        return;
      }
      var windows := server.clientList;
      var keep := ByProcess(processName);
      var i := 0;
      while i < |windows|
        invariant 0 <= i <= |windows|
        invariant result == Filter(Collect(windows[..i], Lookup(server)), keep)
      {
        var w := windows[i];
        var pid := PidOf(server, w);
        var procName := ProcessNameOf(server, pid);
        var matches := Text.ToLowerCompare(procName, processName);
        var added: seq<WindowInfo> := [];
        if matches {
          var info := GetWindowInfo(server, w);
          if info.Ok() {
            added := [info.value];
          }
        }
        MatchStep(server, w, keep, matches, added);
        FilterCollectStep(windows, i, Lookup(server), keep);
        result := result + added;
        i := i + 1;
      }
      TakeAll(windows);
    }

    /** The fourteen manipulation methods: NotInitialized, then InvalidHandle,
        then the requests of Effect. */
    method Mutate(server: Server, handle: Handle, m: Mutation) returns (outcome: Outcome<Request>)
      ensures outcome == MutationOutcome(initialized, server, handle, m)
    {
      if !initialized {
        return Outcome(NotInitialized, []);
      }
      var valid := IsValidWindow(server, handle);
      if !valid {
        return Outcome(InvalidHandle, []);
      }
      var w := handle;
      match m {
        case Close => outcome := Outcome(Success, [NetCloseWindow(w)]);
        case ForceClose => outcome := Outcome(Success, [KillClient(w)]);
        case Minimize => outcome := Outcome(Success, [Iconify(w)]);
        case Maximize =>
          outcome := Outcome(Success, [Map(w), WmStateChange(w, true, NetWmStateMaximizedVert, Some(NetWmStateMaximizedHorz))]);
        case Restore =>
          var requests := [Map(w)];
          requests := requests + [WmStateChange(w, false, NetWmStateMaximizedVert, Some(NetWmStateMaximizedHorz))];
          requests := requests + [WmStateChange(w, false, NetWmStateFullscreen, None)];
          outcome := Outcome(Success, requests);
        case Show => outcome := Outcome(Success, [Map(w)]);
        case Hide => outcome := Outcome(Success, [Unmap(w)]);
        case Focus => outcome := Outcome(Success, [NetActivate(w)]);
        case SetAlwaysOnTop(topmost) => outcome := Outcome(Success, [WmStateChange(w, topmost, NetWmStateAbove, None)]);
        case SetRect(r) => outcome := Outcome(Success, [MoveResize(w, r)]);
        case Move(x, y) => outcome := Outcome(Success, [MoveTo(w, x, y)]);
        case Resize(width, height) => outcome := Outcome(Success, [ResizeTo(w, width, height)]);
        case SetTitle(title) => outcome := Outcome(Success, [StoreName(w, title), SetNetWmName(w, title)]);
        case SetOpacity(opacity) =>
          var clamped := ClampOpacity(opacity);
          var value := OpacityValue(clamped);
          outcome := Outcome(Success, [SetOpacityProperty(w, value)]);
      }
    }
  }

  // ---------------------------------------------------------------- lemmas

  /** One window of a search loop: when the test the loop applied agrees
      with `keep` on the window's snapshot, what the loop adds is the
      filtered report of that window. */
  lemma MatchStep(s: Server, w: Handle, keep: WindowInfo -> bool, matches: bool, added: seq<WindowInfo>)
    requires w in s.alive ==> keep(InfoOf(s, w)) == matches
    requires added == if matches && w in s.alive then [InfoOf(s, w)] else []
    ensures added == Filter(Reported(Lookup(s)(w)), keep)
  {
    FilterReported(Lookup(s)(w), keep);
  }

  /** The state bits of a window are its _NET_WM_STATE atoms: Minimized iff
      HIDDEN, Maximized iff both MAXIMIZED_VERT and MAXIMIZED_HORZ,
      Fullscreen iff FULLSCREEN, AlwaysOnTop iff ABOVE, Focused iff it is the
      active window, and Hidden never; no other bit is set. */
  lemma StateDerivation(s: Server, w: Handle)
    ensures HasFlag(StateBits(s, w), Minimized) <==> WmStateHas(s, w, NetWmStateHidden)
    ensures HasFlag(StateBits(s, w), Maximized)
            <==> WmStateHas(s, w, NetWmStateMaximizedVert) && WmStateHas(s, w, NetWmStateMaximizedHorz)
    ensures HasFlag(StateBits(s, w), Fullscreen) <==> WmStateHas(s, w, NetWmStateFullscreen)
    ensures HasFlag(StateBits(s, w), AlwaysOnTop) <==> WmStateHas(s, w, NetWmStateAbove)
    ensures HasFlag(StateBits(s, w), Focused) <==> s.active == w
    ensures !HasFlag(StateBits(s, w), Hidden)
    ensures StateBits(s, w) & !FlagMask == 0
  {
  }

  /** Every per-handle query follows the guard order, and a successful
      GetWindowInfo describes the window it was asked about, with the same
      state GetWindowState reports. */
  lemma QueriesFollowGuard(initialized: bool, s: Server, h: Handle)
    ensures FollowsGuard(initialized, h in s.alive, InfoQuery(initialized, s, h).error)
    ensures FollowsGuard(initialized, h in s.alive, TitleQuery(initialized, s, h).error)
    ensures FollowsGuard(initialized, h in s.alive, RectQuery(initialized, s, h).error)
    ensures FollowsGuard(initialized, h in s.alive, StateQuery(initialized, s, h).error)
    ensures FollowsGuard(initialized, h in s.alive, PidQuery(initialized, s, h).error)
    ensures InfoQuery(initialized, s, h).Ok() <==> initialized && h in s.alive
    ensures InfoQuery(initialized, s, h).Ok() ==>
              InfoQuery(initialized, s, h).value.handle == h
              && InfoQuery(initialized, s, h).value.state == StateQuery(initialized, s, h).value
              && InfoQuery(initialized, s, h).value.title == TitleQuery(initialized, s, h).value
    ensures RectQuery(initialized, s, h).error == OperationFailed <==> initialized && h in s.alive && h !in s.attributes
  {
    GuardedPrecedence(initialized, h in s.alive, DefaultWindowInfo(), Result(InfoOf(s, h), Success, ""));
  }

  /** GetFocusedWindowInfo reports WindowNotFound, not NotInitialized, on an
      uninitialized backend, and also when no window is active. */
  lemma FocusedInfoWithoutFocus(initialized: bool, s: Server)
    ensures !initialized ==> FocusedInfoQuery(initialized, s).error == WindowNotFound
    ensures s.active == NullHandle ==> FocusedInfoQuery(initialized, s).error == WindowNotFound
    ensures initialized && s.active != NullHandle ==> FocusedInfoQuery(initialized, s) == InfoQuery(true, s, s.active)
  {
  }

  /** Every X11 mutation succeeds exactly when both guards pass, and then
      sends at least one request, all addressed to the given window. */
  lemma MutationsFollowGuard(initialized: bool, s: Server, h: Handle, m: Mutation)
    ensures FollowsGuard(initialized, h in s.alive, MutationOutcome(initialized, s, h, m).code)
    ensures MutationOutcome(initialized, s, h, m).code == Success <==> initialized && h in s.alive
    ensures MutationOutcome(initialized, s, h, m).code == Success <==> |MutationOutcome(initialized, s, h, m).requests| > 0
    ensures forall r :: r in MutationOutcome(initialized, s, h, m).requests ==> r.window == h
  {
  }

  /** GetAllWindows reports exactly the readable client-list windows: an
      info is reported iff it is the snapshot of some live client-list window. */
  lemma AllWindowsMembers(s: Server, info: WindowInfo)
    ensures info in AllWindows(true, s)
            <==> exists k :: 0 <= k < |s.clientList| && s.clientList[k] in s.alive && info == InfoOf(s, s.clientList[k])
  {
    CollectMembers(s.clientList, Lookup(s), info);
  }
}
